=== FILE: README.md ===
# Word-progression model of the vocabulary trainer

The trainer is a Flask backend with a browser page. A learner works through a word
list in groups of ten. The page shows the meaning of one word of the working set and
the learner types the word (in the past-tense mode, `word/past`). At the end of a
group the missed words are asked again, one by one. When a group is finished without
mistakes, the next group is loaded, wrapping to the first after the last. Besides the
general list there are a past-tense list (`ed`), a dictionary list (`yb`) and a
numbers list, each with its own saved progress.

This project models that progression on both sides of the wire:

- `results.dfy` (`Results`): `Option` for absent JSON fields and `Result` for a route's body or error.
- `text.dfy` (`Text`): the string primitives used on answers and keys. These are `lower`, `strip`/`trim`, `split` on one character and `join`, with their algebra. Splitting is shown to invert joining.
- `vocabulary.dfy` (`Vocabulary`): words, modes, numbered groups and the next-word action tags. It cuts a shuffled list into groups and states the group count as ceil(n / size). It also models group-index clamping and Python slicing of a group list.
- `grading.dfy` (`Grading`): the per-mode answer matching of the check-answer route. Each mode's acceptance rule is stated as an if-and-only-if.
- `backend.dfy` (`Backend`): the session store and saved progress, and the routes as functions from a server state to a new state and a reply. The routes are init, the four sheet loaders, check-answer, next-word, next-group, repeat-group, start-review and skip-review. A request datatype and `Serve` tie them together. Every route preserves the session invariant: no word is listed twice as missed, and no more answers are correct than were given.
- `wordlist.dfy` (`WordList`): the add-word and delete-word edits of the general list.
- `client.dfy` (`Client`): the page's cursor state machine. It holds the cursor, the working set and the mode, and models how each reply and each confirm choice moves them. It also covers the blank-answer guard, the feedback line, the dictionary-mode meaning cut and the progress labels.
- `protocol.dfy` (`Protocol`): request and reply as one round. The central property is that the page shows the session's working set in the session's mode, with the cursor on one of its words. It proves that the corrected page keeps this through any run of next-word rounds. Concrete counterexamples show where the page as written loses it.

The shuffles are parameters. The seeded shuffle applied when grouping is a field of
`Library`. The review routes take their own shuffle. Facts about the contents of the
groups assume only that a shuffle reorders (`Permutes`).

Facts the model makes visible about the next-word route:

- It never emits `enter_review` or `review_complete` (`Backend.NextWordStep`).
- After the wrap to group 0, `set_complete` comes only from a mode whose word list forms no group (`Backend.SetCompleteOnlyWhenEmpty`).

So the page's branches for those three tags are reachable only in those cases.

## Model

| member | source | states |
|---|---|---|
| Text.Strip | app.py:586 | a stripped answer has no whitespace at either end and is never longer than the input |
| Text.StripDecompose | app.py:586 | stripping removes a whitespace-only prefix and suffix and nothing else |
| Text.StripPadded | app.py:586 | stripping a whitespace-padded trimmed text gives back exactly that text |
| Text.StripEmptyIffBlank | app.py:963 | a field is empty after stripping exactly when it is all whitespace |
| Text.StripIdempotent | app.py:601 | stripping an already stripped answer part changes nothing |
| Text.StripLowerCommute | app.py:586 | lower-casing then stripping equals stripping then lower-casing |
| Text.LowerUpper | app.py:597 | lower-casing forgets the case the text was typed in |
| Text.LowerIdempotent | app.py:597 | lower-casing twice is lower-casing once |
| Text.CountStrip | app.py:599 | stripping never removes a slash, so the number of parts is fixed before stripping |
| Text.CountLower | app.py:599 | lower-casing keeps every slash |
| Text.Split | app.py:599 | `split('/')` gives one piece more than there are separators, no piece holds the separator, and joining the pieces restores the input |
| Text.SplitJoin | app.py:599 | splitting a join of separator-free pieces gives back those pieces |
| Vocabulary.ChunksFacts | app.py:193-202 | the groups concatenate back to the list, their count is ceil(n / size), they are numbered consecutively, each holds 1 to size words, all but the last exactly size |
| Vocabulary.CreateWordGroups | app.py:185-203 | the groups concatenate to the shuffled list, there are ceil(n / size) of them, group k is numbered k + 1, each is non-empty and at most size long, and only the last may be short |
| Vocabulary.GroupsPermuteInput | app.py:189-191 | with a shuffle that only reorders, the groups hold exactly the input words with their multiplicities |
| Vocabulary.ChunkIsSlice | app.py:194-196 | group k is the slice of the shuffled list from k * size to (k + 1) * size, cut at the end of the list |
| Vocabulary.ClampGroupIndex | app.py:359-362 | an in-range index is kept, an out-of-range one becomes 0, and the result names a group whenever there is one |
| Grading.IsCorrect | app.py:594-606 | only the four known modes can accept an answer |
| Grading.SingleFieldIff | app.py:596-606 | in the general, dictionary and numbers modes an answer is correct iff its stripped, lower-cased text equals the lower-cased word |
| Grading.EdNeedsOneSlash | app.py:599-602 | a past-tense answer without exactly one slash is wrong |
| Grading.EdCorrectIff | app.py:598-602 | a past-tense answer is correct iff the normalized text has a single slash with the stripped left side equal to the word and the stripped right side equal to the past tense, both lower-cased |
| Grading.VerdictIgnoresCase | app.py:586 | an answer typed in upper case gets the same verdict |
| Grading.VerdictIgnoresPadding | app.py:586 | surrounding whitespace never changes the verdict |
| Grading.WordAnswersItself | app.py:596-597 | in a single-field mode a trimmed word typed as stored is accepted |
| Grading.EdAnswerAccepted | app.py:598-602 | `word/past` is accepted when neither side holds a slash or surrounding whitespace |
| Grading.UnknownModeRejects | app.py:594-606 | a mode outside the four known ones rejects every answer |
| Backend.SaveClamped | app.py:359-362 | the mode's saved record keeps every field but the group index, which becomes the clamped index; other modes' progress and the sessions are untouched |
| Backend.RecordAnswer | app.py:608-618 | one more attempt, one more correct answer iff correct, a missed word not yet listed is appended as given, one already listed leaves the list unchanged, a correct answer leaves it unchanged, and the list stays free of duplicate words |
| Backend.ApiInit | app.py:282-343 | the new session is on the saved general group, out of review mode, with zeroed counters and no missed words; it holds that group's words when the saved index names a group and no words otherwise; the reply is that set with the index and the group count |
| Backend.ApiLoadSheet | app.py:345-398 | an empty non-general list is refused with no change; any other load succeeds, clamps and saves the index (the rest of the sheet's record kept), replies with that group and the group count and resets the session onto it in the sheet's mode; other sessions and other modes' progress are untouched |
| Backend.ApiCheckAnswer | app.py:580-634 | an unknown session is refused with no change; a known session with word data always gets a reply; a reply carries the verdict of the answer matching, counters moved by the answer, the caller's session updated by `RecordAnswer` and nothing else, and the mode's completed count raised by one on a correct answer with the rest of its record kept; other sessions and other modes' progress are untouched |
| Backend.NextWordStep | app.py:654-723 | an empty set fails with no change; before the last word only the index moves; at the end the missed words become the set and counters reset; else the group index advances, wrapping to 0, and the session moves onto that group; the review tags are never produced |
| Backend.ApiNextWord | app.py:636-723 | the route answers the step's action, stores the stepped session and changes only the saved progress of the session's mode |
| Backend.ApiNextNineWords | app.py:725-788 | the session switches to the requested mode (general when absent), the saved index is clamped and saved with the rest of that mode's record and other modes' progress kept, and the session is reset onto that group; with no group the route fails after switching the mode |
| Backend.ApiRepeatNineWords | app.py:908-932 | the same working set is returned and only the counters and missed list of that session are reset |
| Backend.ReviewPool | app.py:805-809 | the review window holds at most 27 words and is non-empty when its first group exists |
| Backend.ReviewPoolIsSlice | app.py:805-809 | the review window is exactly the seeded list from word 3 * start to word 3 * (start + 9), cut at the end of the list |
| Vocabulary.FlattenSliceGroups | app.py:887-890 | the words of `count` groups from group `start` on are the list from start * size to (start + count) * size, cut at its end |
| Backend.TakeCap | app.py:813 | the first min(n, 27) words are kept |
| Backend.ApiStartReview | app.py:790-844 | progress is untouched; an unknown session fails; otherwise the session holds at most 27 words, a reordering of the window, in review mode, with zeroed counters |
| Backend.ApiSkipReview | app.py:846-906 | the saved index moves 9 groups ahead and review mode is cleared in every case, other modes' progress kept; past the last group all-complete is answered; before it, a known session always gets the review set, and the session holds the reordered window, out of review mode |
| Backend.SetCompleteOnlyWhenEmpty | app.py:699-723 | after the wrap, set-complete comes only from a mode whose list forms no group, so from an empty list under a reordering shuffle |
| Backend.NextWordKeepsWorkingSet | app.py:699-721 | a non-empty working set stays non-empty and the saved group index keeps naming a group |
| Backend.ServeKeepsSessionsOk | app.py:611-617 | every route keeps every session free of duplicate missed words and with no more correct answers than attempts |
| Backend.ServeAllKeepsSessionsOk | app.py:611-617 | any run of requests keeps that session invariant |
| WordList.AddWord | app.py:955-975 | refused iff the word or meaning is blank; otherwise exactly one entry with the stripped fields is appended and the old entries are kept in front |
| WordList.Remove | app.py:985 | the result keeps exactly the non-matching entries and has no matching one |
| WordList.DeleteWord | app.py:977-988 | an entry survives iff its lower-cased word differs from the lower-cased stripped argument |
| WordList.RemoveAppend | app.py:985 | the filter works piecewise, so survivors keep their order |
| WordList.RemoveIdempotent | app.py:985 | filtering twice removes nothing more |
| WordList.RemoveNothing | app.py:985 | a list without a matching entry is unchanged |
| WordList.DeleteIdempotent | app.py:977-988 | deleting the same word twice changes nothing the second time |
| WordList.DeleteAfterAdd | app.py:955-988 | deleting a word just added undoes the addition together with any older entry of that word |
| WordList.AddDeleteRoundTrip | app.py:955-988 | adding a new word and deleting it gives back the original list |
| Client.ApplyInit | static/js/app.js:25-26 | the page takes the init reply's set and keeps its cursor and mode |
| Client.LoadSheet | static/js/app.js:246-248 | a sheet load puts the cursor on 0, takes the reply's set and switches to the tab's mode |
| Client.ApplyNineReply | static/js/app.js:352-353 | a next-group or repeat reply puts the cursor on 0 and keeps the mode |
| Client.PrevWord | static/js/app.js:188-193 | the cursor goes back one iff it is above 0, never below 0, and the set and mode stay |
| Client.DispatchAsWritten | static/js/app.js:162-182 | `next_word` moves the cursor only, `next_set` replaces the set with the cursor at 0, the dialogs map to the requests they send, and every other tag, `repeat_incorrect` included, changes nothing |
| Client.Dispatch | static/js/app.js:162-182 | as written, except that `repeat_incorrect` makes the missed words the set with the cursor at 0 |
| Client.EnterReviewIgnoresChoice | static/js/app.js:171-178 | both answers to the review dialog lead to the same state and request |
| Client.PrevUndoesNextWord | static/js/app.js:188-193 | stepping back after a forward step returns to the previous state |
| Client.PrevStaysInSet | static/js/app.js:188-193 | stepping back keeps a cursor inside its set |
| Client.CheckAnswerRequest | static/js/app.js:96-111 | nothing is sent iff the answer is blank; otherwise the trimmed non-empty answer goes out with the cursor's word and the page's mode |
| Client.Feedback | static/js/app.js:117-139 | the line starts with the verdict's prefix and the word, and only the past-tense mode adds the arrow and the past tense |
| Client.FeedbackShowsVerdict | static/js/app.js:117-139 | a right and a wrong verdict never start with the same character |
| Client.FeedbackDeterminesAnswer | static/js/app.js:121-137 | outside the past-tense mode the line determines the verdict and the word |
| Client.DisplayMeaning | static/js/app.js:74-79 | in the dictionary mode a meaning over 40 characters becomes its first 37 plus `...` (40 in all); anything else is shown unchanged |
| Client.DisplayMeaningIdempotent | static/js/app.js:74-79 | a shown meaning is shown unchanged again |
| Client.Shown | static/js/app.js:68-81 | a meaning is shown iff the cursor is on a word, and it is that word's display form |
| Client.StatsAsWritten | static/js/app.js:91-94 | the labels read word index + 1 of 3 and set floor(index / 3) + 1 of 3 |
| Client.StatsFor | static/js/app.js:91-94 | the corrected labels count against the set shown and stay within their totals for a cursor in the set |
| Protocol.StartUp | static/js/app.js:20-26 | after page load the page and the new session agree |
| Backend.ApiLoadSheetAsWritten | app.py:387-398 | the loaders as written always fail, with an internal error whenever the intended load succeeds, after making the same session and progress updates |
| Protocol.SwitchTabJoins | static/js/app.js:237-269 | with the intended loader reply, loading a sheet with words leaves page and session in step |
| Protocol.SwitchTabEmptySheetLosesSync | static/js/app.js:271-282 | a tab whose list is empty leaves the server unchanged while the page moves to that tab with no words, so page and session fall out of step when the tab changes the mode |
| Protocol.SwitchTabAsWrittenLosesSync | static/js/app.js:237-269 | with the loaders as written, a tab click that changes the mode leaves the page unchanged while the session moves to the new mode, so they fall out of step |
| Protocol.RepeatRoundKeepsSync | static/js/app.js:368-379 | repeating the group keeps page and session in step |
| Protocol.NextNineRoundKeepsSync | static/js/app.js:339-354 | the next-group request that carries the mode keeps page and session in step |
| Protocol.AdvanceRoundKeepsSync | static/js/app.js:149-186 | every next-word round of the corrected page keeps page and session in step |
| Protocol.AdvanceManyKeepsSync | static/js/app.js:149-186 | any run of next-word rounds of the corrected page, on a mode whose list forms a group, keeps page and session in step and keeps the mode |
| Protocol.AnswerRoundGradesCursorWord | static/js/app.js:96-111 | the server grades the word under the cursor, the page's trimming does not change the verdict, and the round keeps page and session in step |
| Protocol.StatsWithinTotals | static/js/app.js:91-94 | with the page in step, the corrected labels never exceed their totals |
| Protocol.RepeatIgnoredLosesSync | static/js/app.js:162-182 | a concrete group where the dropped `repeat_incorrect` reply leaves the page on the old set |
| Protocol.RepeatFollowedKeepsSync | app.py:668-678 | on the same input the corrected page moves onto the missed word with the server |
| Protocol.NextNineWithoutModeLosesSync | static/js/app.js:345-348 | a concrete session in the past-tense mode that the mode-less request switches to the general list while the page stays in the past-tense mode |
| Protocol.StatsAsWrittenOverflow | static/js/app.js:92-93 | on the last word of a full group the labels read 10 of 3 and 4 of 3 |

## Left out

- Routing, JSON encoding, cookies, login and passwords are left out. One logged-in user is assumed, so the 401 answers never occur and every session carries the user name.
- Reading and writing the user file and the word files is left out. The word lists are the `Library` fields, read as they stand at each request. Saved progress is a map from mode to `Progress`. The category and last-study-date fields are not modelled.
- `random.seed`/`random.shuffle` are modelled as shuffle parameters. Permutation facts hold under `Permutes`.
- The accuracy percentage (floating point) and the reply messages are left out.
- Audio, the AI sentence endpoints, the page's translation link and the translation script are foreign services and are left out.
- The sheet loaders' replies name an undefined `review_mode` (app.py:394, 454, 514, 574), so in the source each loader raises after updating the session and progress. `Backend.ApiLoadSheetAsWritten` models that; `Backend.ApiLoadSheet`, `Serve` and `Protocol.SwitchTab` use the reply the loader evidently means to send (see Findings).
- `Backend.ApiCheckAnswer`: an absent `word_data` is always an internal error. In the source, an unknown mode with an empty missed list instead records the absent value.
- `Backend.ApiLoadSheet`: it requires one of the four sheets, because the four loaders are separate routes.
- `Text.Strip`: one whitespace set serves both sides: tab through carriage return, and space. Python's `strip` also removes the separators `\x1c` to `\x1f`, which JavaScript's `trim` keeps. Both also remove non-ASCII spaces. Python's `lower` folds non-ASCII letters; the model folds A-Z only.
- `Protocol.SwitchTabJoins`: it holds only for a sheet with words. A past-tense or dictionary tab whose list is empty gets a 404 error body (app.py:408-409), which the page still applies as a sheet (static/js/app.js:279-282), so the page changes mode while the session does not; `Protocol.SwitchTabEmptySheetLosesSync` states this.
- `Client.ShowSet`: a reply without `current_set` (an error body) leaves the page with the empty set. In the page the set becomes `undefined`, and the next answer then fails on the page before any request is sent.
- `Client.CheckAnswerRequest`: in that `undefined` state the page sends nothing, while the model sends a request without `word_data`.
- `Client.DisplayMeaning`: lengths count characters. JavaScript counts UTF-16 code units.
- Overlapping requests are not modelled. The page does not wait for one request to finish before sending the next (the auto-advance timer at static/js/app.js:128-130 can fire while another request is pending), so two next-word requests with the same `current_index` at the end of a group would advance the saved group twice. `Protocol.AdvanceManyKeepsSync` and the other sync lemmas cover sequential rounds only, each reply applied before the next request is sent.
- DOM updates, `alert`/`confirm`, focus, the `setTimeout` auto-advance after an answer, and keyboard and modal handlers are left out. Confirm choices are boolean inputs. A page reload is modelled as a new page start on a fresh session.
- The page has no tab for the numbers list. The backend's numbers sheet is modelled; the client never loads it.
- Malformed request bodies are left out. This covers a non-integer `current_index` and a `word_data` without a `word` key.

## Findings

| source | as written | input that shows it | evidently intended | confidence | as-written member | corrected member |
|---|---|---|---|---|---|---|
| static/js/app.js:162-182 | the next-word handler has no branch for `repeat_incorrect`, so the reply is dropped and the page stays on the old set while the server works on the missed words | a two-word group with the first word missed; on the second word the server switches to the missed word and the page stays on the second word | the page shows the missed words from the first | not executed; the backend emits this tag after every group with a mistake | Protocol.RepeatIgnoredLosesSync | Protocol.AdvanceRoundKeepsSync |
| static/js/app.js:345-348 | `nextNineWords` sends no `mode`, so the route switches the session to the general list | a session and page in the past-tense mode; after the request the server is on the general list and the page is still in the past-tense mode | the page's mode is sent along | not executed; in app.js, the page sends this request only after set-complete or enter-review, which occur only when a mode's list forms no group | Protocol.NextNineWithoutModeLosesSync | Protocol.NextNineRoundKeepsSync |
| app.py:387-398 | each sheet loader names an undefined `review_mode` in its reply, so it fails after switching the session and saving progress; the error page is not JSON, and the page's error handler keeps the old set and mode | page and session on the general list; click the past-tense tab with a non-empty past-tense list: the session is in the past-tense mode, the page still in the general mode | the reply carries `review_mode` False, as the session holds | not executed | Protocol.SwitchTabAsWrittenLosesSync | Protocol.SwitchTabJoins |
| static/js/app.js:91-94 | both labels are over a fixed 3, left over from a three-word layout, while groups hold 10 words | cursor on the 10th word: word 10 of 3, set 4 of 3 | totals taken from the set shown | not executed | Protocol.StatsAsWrittenOverflow | Protocol.StatsWithinTotals |

=== FILE: backend.dfy ===
/**
  The Flask backend's session store and its word-progression routes: session
  creation, the four sheet loaders, answer checking, the end-of-group state
  machine of the next-word route, the next-group and repeat-group routes and the
  two review routes. One logged-in user is modelled; its saved progress is a map
  from mode to `Progress`. Word files and the shuffles are parameters.
 */
module Backend {
  import opened Results
  import opened Vocabulary
  import Grading

  /** Words per group for every sheet, the next-word route and the next-group route. */
  const GroupSize: nat := 10
  /** Words per group in the two review routes. */
  const ReviewGroupSize: nat := 3
  /** Groups per review window. */
  const ReviewSpan: nat := 9
  /** Most words the start-review route keeps. */
  const ReviewCap: nat := 27

  /** The saved progress of one mode (a `progress[mode]` entry of the user file). */
  datatype Progress = Progress(groupIndex: nat, completedCount: nat, reviewStartGroup: nat, reviewMode: bool)

  /** What `get_user_progress` answers for a mode with nothing saved. */
  const DefaultProgress := Progress(0, 0, 0, false)

  /** One entry of the in-memory `sessions` store. `current` is the working set
      (`all_nine_words`); `incorrect` the words missed in it so far. */
  datatype Session = Session(
    current: seq<Word>,
    repeatCount: nat,
    correctCount: nat,
    totalAttempts: nat,
    mode: Mode,
    groupIndex: nat,
    reviewMode: bool,
    incorrect: seq<Word>)

  datatype Server = Server(sessions: map<string, Session>, progress: map<Mode, Progress>)

  /** The four word files and the seeded shuffle `create_word_groups` applies to them. */
  datatype Library = Library(
    words: seq<Word>,
    ed: seq<Word>,
    yb: seq<Word>,
    numbers: seq<Word>,
    seeded: seq<Word> -> seq<Word>)

  datatype ApiError =
    | SessionNotFound   // 404 'Session not found'
    | NoWords           // 404 from a sheet loader whose file is empty
    | LoadFailed        // 404 from the next-group route when there is no group
    | InternalError     // an uncaught KeyError or TypeError (HTTP 500)

  /** The state after a request and the reply body or error. */
  datatype Response<T> = Response(server: Server, body: Result<T, ApiError>)

  datatype CheckReply = CheckReply(isCorrect: bool, correctCount: nat, totalAttempts: nat)
  datatype SetReply = SetReply(current: seq<Word>, groupIndex: nat, totalGroups: nat)
  datatype ReviewReply = ReviewSet(current: seq<Word>, reviewMode: bool) | AllComplete

  /** The word file a mode loads; any other mode loads the general list. */
  function WordList(lib: Library, mode: Mode): seq<Word> {
    match mode
    case Ed => lib.ed
    case Yb => lib.yb
    case Numbers => lib.numbers
    case _ => lib.words
  }

  function Groups(lib: Library, mode: Mode, size: nat): seq<Group>
    requires size > 0
  {
    CreateWordGroups(WordList(lib, mode), lib.seeded, size)
  }

  function GetProgress(srv: Server, mode: Mode): Progress {
    if mode in srv.progress then srv.progress[mode] else DefaultProgress
  }

  function SaveProgress(srv: Server, mode: Mode, p: Progress): Server {
    srv.(progress := srv.progress[mode := p])
  }

  /** Saves the clamped index when the stored one was out of range, as the loaders do. */
  function SaveClamped(srv: Server, mode: Mode, groupCount: nat): (r: Server)
    ensures r.sessions == srv.sessions
    ensures var p := GetProgress(srv, mode);
      GetProgress(r, mode) == p.(groupIndex := ClampGroupIndex(p.groupIndex, groupCount))
    ensures forall m :: m != mode ==> GetProgress(r, m) == GetProgress(srv, m)
  {
    var p := GetProgress(srv, mode);
    if p.groupIndex >= groupCount then SaveProgress(srv, mode, p.(groupIndex := 0)) else srv
  }

  // ---------------------------------------------------------------------------
  // The missed-word list

  predicate HasWord(ws: seq<Word>, key: string) {
    exists i :: 0 <= i < |ws| && ws[i].word == key
  }

  /** No two entries share a `word` key. */
  predicate NoDuplicateWords(ws: seq<Word>) {
    forall i, j :: 0 <= i < j < |ws| ==> ws[i].word != ws[j].word
  }

  /** The counter and missed-list update of the check-answer route. */
  function RecordAnswer(s: Session, correct: bool, w: Word): (r: Session)
    ensures r.totalAttempts == s.totalAttempts + 1
    ensures r.correctCount == s.correctCount + (if correct then 1 else 0)
    ensures |s.incorrect| <= |r.incorrect| <= |s.incorrect| + 1 && r.incorrect[..|s.incorrect|] == s.incorrect
    ensures !correct ==> HasWord(r.incorrect, w.word)
    ensures correct ==> r.incorrect == s.incorrect
    ensures !correct && !HasWord(s.incorrect, w.word) ==> r.incorrect == s.incorrect + [w]
    ensures HasWord(s.incorrect, w.word) ==> r.incorrect == s.incorrect
    ensures NoDuplicateWords(s.incorrect) ==> NoDuplicateWords(r.incorrect)
    ensures r.current == s.current && r.mode == s.mode && r.groupIndex == s.groupIndex
    ensures r.reviewMode == s.reviewMode && r.repeatCount == s.repeatCount
  {
    var missed :=
      if correct || HasWord(s.incorrect, w.word) then s.incorrect else s.incorrect + [w];
    assert !correct ==> HasWord(missed, w.word) by {
      if !correct && !HasWord(s.incorrect, w.word) {
        assert missed[|s.incorrect|] == w;
      }
    }
    s.(correctCount := s.correctCount + (if correct then 1 else 0),
       totalAttempts := s.totalAttempts + 1,
       incorrect := missed)
  }

  // ---------------------------------------------------------------------------
  // Routes

  /** `/api/init`: a fresh session on the saved Words group. The stored index is not
      clamped here: past the last group the working set is empty. */
  function ApiInit(srv: Server, id: string, lib: Library): (r: Response<SetReply>)
    ensures r.body.Success?
    ensures r.server.progress == srv.progress
    ensures id in r.server.sessions && r.server.sessions - {id} == srv.sessions - {id}
    ensures var s := r.server.sessions[id];
      && s.mode == Words && s.incorrect == [] && s.correctCount == 0 && s.totalAttempts == 0
      && s.groupIndex == GetProgress(srv, Words).groupIndex
      && s.repeatCount == 0 && !s.reviewMode
      && r.body.value == SetReply(s.current, s.groupIndex, |Groups(lib, Words, GroupSize)|)
      && (|s.current| > 0 <==> s.groupIndex < |Groups(lib, Words, GroupSize)|)
      && (s.groupIndex < |Groups(lib, Words, GroupSize)| ==> s.current == Groups(lib, Words, GroupSize)[s.groupIndex].words)
  {
    var groups := Groups(lib, Words, GroupSize);
    var idx := GetProgress(srv, Words).groupIndex;
    var current := if idx < |groups| then groups[idx].words else [];
    var s := Session(current, 0, 0, 0, Words, idx, false, []);
    Response(srv.(sessions := srv.sessions[id := s]), Success(SetReply(current, idx, |groups|)))
  }

  /** The four sheet loaders (`/api/load-words-sheet`, `-ed-`, `-yb-`, `-numbers-`):
      clamp the saved group index, load that group and reset the session to it. */
  function ApiLoadSheet(srv: Server, id: string, sheet: Mode, lib: Library): (r: Response<SetReply>)
    requires sheet == Words || sheet == Ed || sheet == Yb || sheet == Numbers
    ensures sheet != Words && |WordList(lib, sheet)| == 0 ==> r == Response(srv, Failure(NoWords))
    ensures sheet == Words || |WordList(lib, sheet)| > 0 ==> r.body.Success?
    ensures forall o :: o in srv.sessions && o != id ==> o in r.server.sessions && r.server.sessions[o] == srv.sessions[o]
    ensures forall m :: m != sheet ==> GetProgress(r.server, m) == GetProgress(srv, m)
    ensures r.body.Success? ==>
      var groups := Groups(lib, sheet, GroupSize);
      var idx := r.body.value.groupIndex;
      && idx == ClampGroupIndex(GetProgress(srv, sheet).groupIndex, |groups|)
      && r.body.value.totalGroups == |groups|
      && GetProgress(r.server, sheet) == GetProgress(srv, sheet).(groupIndex := idx)
      && (|groups| > 0 ==> idx < |groups| && r.body.value.current == groups[idx].words)
      && (|groups| == 0 ==> r.body.value.current == [])
      && r.server.sessions.Keys == srv.sessions.Keys
      && (id in srv.sessions ==>
            r.server.sessions[id] == srv.sessions[id].(current := r.body.value.current, repeatCount := 0,
              mode := sheet, correctCount := 0, totalAttempts := 0, reviewMode := false,
              groupIndex := idx, incorrect := []))
  {
    var words := WordList(lib, sheet);
    if sheet != Words && |words| == 0 then Response(srv, Failure(NoWords))
    else
      var groups := Groups(lib, sheet, GroupSize);
      var idx := ClampGroupIndex(GetProgress(srv, sheet).groupIndex, |groups|);
      var srv1 := SaveClamped(srv, sheet, |groups|);
      var current := if idx < |groups| then groups[idx].words else [];
      var sessions :=
        if id in srv1.sessions then
          srv1.sessions[id := srv1.sessions[id].(current := current, repeatCount := 0, mode := sheet,
            correctCount := 0, totalAttempts := 0, reviewMode := false, groupIndex := idx, incorrect := [])]
        else srv1.sessions;
      Response(srv1.(sessions := sessions), Success(SetReply(current, idx, |groups|)))
  }

  /** The sheet loaders as written: the reply names a variable the loader never defines,
      so the route fails with an internal error after the session and progress updates. */
  function ApiLoadSheetAsWritten(srv: Server, id: string, sheet: Mode, lib: Library): (r: Response<SetReply>)
    requires sheet == Words || sheet == Ed || sheet == Yb || sheet == Numbers
    ensures r.body.Failure?
    ensures r.server == ApiLoadSheet(srv, id, sheet, lib).server
    ensures sheet == Words || |WordList(lib, sheet)| > 0 ==> r.body == Failure(InternalError)
  {
    var r := ApiLoadSheet(srv, id, sheet, lib);
    if r.body.Success? then Response(r.server, Failure(InternalError)) else r
  }

  /** `/api/check-answer`: grade the answer, update the counters and the missed list,
      and count a correct answer in the saved progress of `mode`. */
  function ApiCheckAnswer(srv: Server, id: string, rawInput: string, wordData: Option<Word>, mode: Mode)
    : (r: Response<CheckReply>)
    ensures id !in srv.sessions ==> r == Response(srv, Failure(SessionNotFound))
    ensures id in srv.sessions && wordData.None? ==> r == Response(srv, Failure(InternalError))
    ensures id in srv.sessions && wordData.Some? ==> r.body.Success?
    ensures r.body.Failure? ==> r.server == srv
    ensures r.body.Success? ==> id in srv.sessions && id in r.server.sessions && wordData.Some?
    ensures r.body.Success? ==>
      var old_ := srv.sessions[id];
      var new_ := r.server.sessions[id];
      var ok := r.body.value.isCorrect;
      && ok == Grading.IsCorrect(mode, rawInput, wordData.value)
      && new_.totalAttempts == old_.totalAttempts + 1 == r.body.value.totalAttempts
      && new_.correctCount == old_.correctCount + (if ok then 1 else 0) == r.body.value.correctCount
      && (!ok ==> HasWord(new_.incorrect, wordData.value.word))
      && (NoDuplicateWords(old_.incorrect) ==> NoDuplicateWords(new_.incorrect))
      && new_ == RecordAnswer(old_, ok, wordData.value)
      && r.server.sessions.Keys == srv.sessions.Keys
      && (forall other :: other in srv.sessions && other != id ==> r.server.sessions[other] == srv.sessions[other])
    ensures r.body.Success? ==>
      var p := GetProgress(srv, mode);
      GetProgress(r.server, mode) == p.(completedCount := p.completedCount + (if r.body.value.isCorrect then 1 else 0))
    ensures forall m :: m != mode ==> GetProgress(r.server, m) == GetProgress(srv, m)
  {
    if id !in srv.sessions then Response(srv, Failure(SessionNotFound))
    else if wordData.None? then Response(srv, Failure(InternalError))
    else
      var w := wordData.value;
      var ok := Grading.IsCorrect(mode, rawInput, w);
      var s := RecordAnswer(srv.sessions[id], ok, w);
      var p := GetProgress(srv, mode);
      var srv1 := if ok then SaveProgress(srv, mode, p.(completedCount := p.completedCount + 1)) else srv;
      Response(srv1.(sessions := srv1.sessions[id := s]), Success(CheckReply(ok, s.correctCount, s.totalAttempts)))
  }

  /** The result of the next-word state machine on one session. */
  datatype Transition = Transition(session: Session, progress: Progress, action: Action)

  /** The decision of `/api/next-word` for a session, the index the client sent and the
      saved progress of the session's mode. */
  function NextWordStep(s: Session, currentIndex: int, p: Progress, lib: Library): (t: Transition)
    ensures !t.action.EnterReview? && !t.action.ReviewComplete?
    ensures |s.current| == 0 ==> t == Transition(s, p, Failed)
    ensures |s.current| > 0 && currentIndex < |s.current| - 1 ==> t == Transition(s, p, NextWord(currentIndex + 1))
    ensures |s.current| > 0 && currentIndex >= |s.current| - 1 && |s.incorrect| > 0 ==>
      t == Transition(s.(current := s.incorrect, incorrect := [], correctCount := 0, totalAttempts := 0),
                      p, RepeatIncorrect(s.incorrect))
    ensures |s.current| > 0 && currentIndex >= |s.current| - 1 && |s.incorrect| == 0 ==>
      var groups := Groups(lib, s.mode, GroupSize);
      var next := if p.groupIndex + 1 >= |groups| then 0 else p.groupIndex + 1;
      && t.progress == p.(groupIndex := next)
      && (|groups| > 0 ==>
            && next < |groups|
            && t.action == NextSet(groups[next].words, next, |groups|)
            && t.session == s.(current := groups[next].words, groupIndex := next,
                               correctCount := 0, totalAttempts := 0, incorrect := []))
      && (|groups| == 0 ==> t.action == SetComplete && t.session == s)
  {
    if |s.current| == 0 then Transition(s, p, Failed)
    else if currentIndex < |s.current| - 1 then Transition(s, p, NextWord(currentIndex + 1))
    else if |s.incorrect| > 0 then
      Transition(s.(current := s.incorrect, incorrect := [], correctCount := 0, totalAttempts := 0),
                 p, RepeatIncorrect(s.incorrect))
    else
      var groups := Groups(lib, s.mode, GroupSize);
      var next := p.groupIndex + 1;
      var next := if next >= |groups| then 0 else next;
      var p' := p.(groupIndex := next);
      if next < |groups| then
        var words := groups[next].words;
        Transition(s.(current := words, groupIndex := next, correctCount := 0, totalAttempts := 0, incorrect := []),
                   p', NextSet(words, next, |groups|))
      else Transition(s, p', SetComplete)
  }

  /** `/api/next-word`: runs `NextWordStep` on the caller's session and saves the group
      index when a group was finished without mistakes. */
  function ApiNextWord(srv: Server, id: string, currentIndex: int, lib: Library): (r: Response<Action>)
    ensures id !in srv.sessions ==> r == Response(srv, Failure(SessionNotFound))
    ensures id in srv.sessions ==>
      var s := srv.sessions[id];
      var t := NextWordStep(s, currentIndex, GetProgress(srv, s.mode), lib);
      && r.body == Success(t.action)
      && r.server.sessions == srv.sessions[id := t.session]
      && GetProgress(r.server, s.mode) == t.progress
      && (forall m :: m != s.mode ==> GetProgress(r.server, m) == GetProgress(srv, m))
  {
    if id !in srv.sessions then Response(srv, Failure(SessionNotFound))
    else
      var s := srv.sessions[id];
      var t := NextWordStep(s, currentIndex, GetProgress(srv, s.mode), lib);
      var srv1 := if t.action.NextSet? || t.action.SetComplete? then SaveProgress(srv, s.mode, t.progress) else srv;
      Response(srv1.(sessions := srv1.sessions[id := t.session]), Success(t.action))
  }

  /** `/api/next-nine-words`: switch the session to `mode` (default 'Words'), clamp the
      saved group index and load that group. */
  function ApiNextNineWords(srv: Server, id: string, modeField: Option<Mode>, lib: Library): (r: Response<SetReply>)
    ensures id !in srv.sessions ==> r == Response(srv, Failure(SessionNotFound))
    ensures id in srv.sessions ==>
      var mode := modeField.GetOr(Words);
      var groups := Groups(lib, mode, GroupSize);
      var idx := ClampGroupIndex(GetProgress(srv, mode).groupIndex, |groups|);
      && id in r.server.sessions
      && r.server.sessions[id].mode == mode
      && GetProgress(r.server, mode) == GetProgress(srv, mode).(groupIndex := idx)
      && (forall m :: m != mode ==> GetProgress(r.server, m) == GetProgress(srv, m))
      && r.server.sessions - {id} == srv.sessions - {id}
      && (|groups| == 0 ==>
            && r.body == Failure(LoadFailed)
            && r.server.sessions[id] == srv.sessions[id].(mode := mode))
      && (|groups| > 0 ==>
            && r.body == Success(SetReply(groups[idx].words, idx, |groups|))
            && r.server.sessions[id] == srv.sessions[id].(mode := mode,
                 current := groups[idx].words, repeatCount := 0, correctCount := 0,
                 totalAttempts := 0, groupIndex := idx, incorrect := []))
  {
    if id !in srv.sessions then Response(srv, Failure(SessionNotFound))
    else
      var mode := modeField.GetOr(Words);
      var s := srv.sessions[id].(mode := mode);
      var groups := Groups(lib, mode, GroupSize);
      var idx := ClampGroupIndex(GetProgress(srv, mode).groupIndex, |groups|);
      var srv1 := SaveClamped(srv, mode, |groups|);
      if idx < |groups| then
        var words := groups[idx].words;
        var s' := s.(current := words, repeatCount := 0, correctCount := 0, totalAttempts := 0,
                     groupIndex := idx, incorrect := []);
        Response(srv1.(sessions := srv1.sessions[id := s']), Success(SetReply(words, idx, |groups|)))
      else
        Response(srv1.(sessions := srv1.sessions[id := s]), Failure(LoadFailed))
  }

  /** `/api/repeat-nine-words`: the same working set again with fresh counters. */
  function ApiRepeatNineWords(srv: Server, id: string): (r: Response<seq<Word>>)
    ensures id !in srv.sessions ==> r == Response(srv, Failure(SessionNotFound))
    ensures id in srv.sessions ==>
      && r.body == Success(srv.sessions[id].current)
      && r.server == srv.(sessions := srv.sessions[id := srv.sessions[id].(
           repeatCount := 0, correctCount := 0, totalAttempts := 0, incorrect := [])])
  {
    if id !in srv.sessions then Response(srv, Failure(SessionNotFound))
    else
      var s := srv.sessions[id];
      var s' := s.(repeatCount := 0, correctCount := 0, totalAttempts := 0, incorrect := []);
      Response(srv.(sessions := srv.sessions[id := s']), Success(s.current))
  }

  /** The words of the review window: up to `ReviewSpan` groups of `ReviewGroupSize`
      from group `start` on (a Python slice, so it is empty past the end). */
  function ReviewPool(lib: Library, mode: Mode, start: nat): (pool: seq<Word>)
    ensures |pool| <= ReviewCap
    ensures start < |Groups(lib, mode, ReviewGroupSize)| ==> |pool| > 0
  {
    var groups := Groups(lib, mode, ReviewGroupSize);
    var window := SliceGroups(groups, start, ReviewSpan);
    FlattenLength(window, ReviewGroupSize);
    if start < |groups| then
      assert window[0] == groups[start];
      assert window == [window[0]] + window[1..];
      Flatten(window)
    else Flatten(window)
  }

  /** The review window is the slice of the mode's seeded list from the first word of
      group `start` to the first word `ReviewSpan` groups later, cut at the end of the list. */
  lemma ReviewPoolIsSlice(lib: Library, mode: Mode, start: nat)
    ensures var s := lib.seeded(WordList(lib, mode));
      Min(start * ReviewGroupSize, |s|) <= Min((start + ReviewSpan) * ReviewGroupSize, |s|)
    ensures var s := lib.seeded(WordList(lib, mode));
      ReviewPool(lib, mode, start) == s[Min(start * ReviewGroupSize, |s|) .. Min((start + ReviewSpan) * ReviewGroupSize, |s|)]
  {
    FlattenSliceGroups(lib.seeded(WordList(lib, mode)), ReviewGroupSize, 0, start, ReviewSpan);
  }

  /** A shuffle that only reorders keeps the length. */
  lemma ShuffleKeepsLength(shuffle: seq<Word> -> seq<Word>, ws: seq<Word>)
    requires Permutes(shuffle)
    ensures |shuffle(ws)| == |ws| && multiset(shuffle(ws)) == multiset(ws)
  {
    assert |multiset(shuffle(ws))| == |multiset(ws)|;
  }

  /** `all_review_words[:27] if len(all_review_words) >= 27 else all_review_words` */
  function TakeCap(ws: seq<Word>): (r: seq<Word>)
    ensures |r| == Min(|ws|, ReviewCap) && r == ws[..|r|]
  {
    if |ws| >= ReviewCap then ws[..ReviewCap] else ws
  }

  /** `start_review_mode` (route `/api/start_review`): the shuffled review window as the
      new working set, in review mode. The missed list and group index are kept. */
  function ApiStartReview(srv: Server, id: string, modeField: Option<Mode>, lib: Library,
                          shuffle: seq<Word> -> seq<Word>): (r: Response<ReviewReply>)
    ensures r.server.progress == srv.progress
    ensures id !in srv.sessions ==> r == Response(srv, Failure(InternalError))
    ensures id in srv.sessions ==> id in r.server.sessions
    ensures id in srv.sessions ==>
      var mode := modeField.GetOr(Words);
      var pool := ReviewPool(lib, mode, GetProgress(srv, mode).reviewStartGroup);
      var s := r.server.sessions[id];
      && r.body == Success(ReviewSet(s.current, true))
      && r.server.sessions == srv.sessions[id := s]
      && |s.current| <= ReviewCap
      && (Permutes(shuffle) ==> multiset(s.current) == multiset(pool))
      && s == srv.sessions[id].(current := s.current, repeatCount := 0, correctCount := 0,
                                totalAttempts := 0, reviewMode := true)
  {
    var mode := modeField.GetOr(Words);
    var pool := ReviewPool(lib, mode, GetProgress(srv, mode).reviewStartGroup);
    var words := TakeCap(shuffle(pool));
    if id !in srv.sessions then Response(srv, Failure(InternalError))
    else
      assert Permutes(shuffle) ==> words == shuffle(pool) by {
        if Permutes(shuffle) {
          ShuffleKeepsLength(shuffle, pool);
        }
      }
      var s := srv.sessions[id].(current := words, repeatCount := 0, correctCount := 0,
                                 totalAttempts := 0, reviewMode := true);
      Response(srv.(sessions := srv.sessions[id := s]), Success(ReviewSet(words, true)))
  }

  /** `/api/skip_review`: move the saved group index `ReviewSpan` groups ahead (saved
      before anything else can fail) and load the shuffled window there. */
  function ApiSkipReview(srv: Server, id: string, modeField: Option<Mode>, lib: Library,
                         shuffle: seq<Word> -> seq<Word>): (r: Response<ReviewReply>)
    ensures var mode := modeField.GetOr(Words);
      var p := GetProgress(srv, mode);
      GetProgress(r.server, mode) == p.(groupIndex := p.groupIndex + ReviewSpan, reviewMode := false)
    ensures var mode := modeField.GetOr(Words);
      forall m :: m != mode ==> GetProgress(r.server, m) == GetProgress(srv, m)
    ensures var mode := modeField.GetOr(Words);
      var next := GetProgress(srv, mode).groupIndex + ReviewSpan;
      && (next >= |Groups(lib, mode, ReviewGroupSize)| ==>
            r.body == Success(AllComplete) && r.server.sessions == srv.sessions)
      && (next < |Groups(lib, mode, ReviewGroupSize)| && id !in srv.sessions ==>
            r.body == Failure(InternalError) && r.server.sessions == srv.sessions)
    ensures var mode := modeField.GetOr(Words);
      var next := GetProgress(srv, mode).groupIndex + ReviewSpan;
      next < |Groups(lib, mode, ReviewGroupSize)| && id in srv.sessions ==> r.body.Success? && r.body.value.ReviewSet?
    ensures r.body.Success? && r.body.value.ReviewSet? ==> id in srv.sessions && id in r.server.sessions
    ensures r.body.Success? && r.body.value.ReviewSet? ==>
      var mode := modeField.GetOr(Words);
      var pool := ReviewPool(lib, mode, GetProgress(srv, mode).groupIndex + ReviewSpan);
      var s := r.server.sessions[id];
      && r.body.value == ReviewSet(shuffle(pool), false)
      && r.server.sessions == srv.sessions[id := s]
      && (Permutes(shuffle) ==> multiset(s.current) == multiset(pool) && 0 < |s.current| <= ReviewCap)
      && s == srv.sessions[id].(current := shuffle(pool), repeatCount := 0, correctCount := 0,
                                totalAttempts := 0, reviewMode := false)
  {
    var mode := modeField.GetOr(Words);
    var p := GetProgress(srv, mode);
    var next := p.groupIndex + ReviewSpan;
    var srv1 := SaveProgress(srv, mode, p.(groupIndex := next, reviewMode := false));
    if next >= |Groups(lib, mode, ReviewGroupSize)| then Response(srv1, Success(AllComplete))
    else if id !in srv1.sessions then Response(srv1, Failure(InternalError))
    else
      var pool := ReviewPool(lib, mode, next);
      var words := shuffle(pool);
      assert Permutes(shuffle) ==> |words| == |pool| by {
        if Permutes(shuffle) {
          ShuffleKeepsLength(shuffle, pool);
        }
      }
      var s := srv1.sessions[id].(current := words, repeatCount := 0, correctCount := 0,
                                  totalAttempts := 0, reviewMode := false);
      Response(srv1.(sessions := srv1.sessions[id := s]), Success(ReviewSet(words, false)))
  }

  // ---------------------------------------------------------------------------
  // Properties of the next-word state machine

  /** Past the last word, `SetComplete` comes only from a mode whose word list groups into
      nothing; with a shuffle that only reorders, only from an empty word list. */
  lemma SetCompleteOnlyWhenEmpty(s: Session, currentIndex: int, p: Progress, lib: Library)
    requires NextWordStep(s, currentIndex, p, lib).action == SetComplete
    ensures |Groups(lib, s.mode, GroupSize)| == 0
    ensures Permutes(lib.seeded) ==> |WordList(lib, s.mode)| == 0
  {
    if Permutes(lib.seeded) {
      GroupsPermuteInput(WordList(lib, s.mode), lib.seeded, GroupSize);
    }
  }

  /** A non-empty working set stays non-empty, and the saved group index names a group
      whenever there is one. */
  lemma NextWordKeepsWorkingSet(s: Session, currentIndex: int, p: Progress, lib: Library)
    requires |s.current| > 0
    requires |Groups(lib, s.mode, GroupSize)| > 0 ==> p.groupIndex < |Groups(lib, s.mode, GroupSize)|
    ensures |NextWordStep(s, currentIndex, p, lib).session.current| > 0
    ensures var t := NextWordStep(s, currentIndex, p, lib);
      |Groups(lib, s.mode, GroupSize)| > 0 ==> t.progress.groupIndex < |Groups(lib, s.mode, GroupSize)|
  {
    var groups := Groups(lib, s.mode, GroupSize);
    var t := NextWordStep(s, currentIndex, p, lib);
    if t.action.NextSet? {
      assert 0 < |groups[t.progress.groupIndex].words|;
    }
  }

  // ---------------------------------------------------------------------------
  // A session invariant every route keeps

  /** No word is listed twice as missed, and no more answers were right than were given. */
  predicate SessionOk(s: Session) {
    NoDuplicateWords(s.incorrect) && s.correctCount <= s.totalAttempts
  }

  predicate ServerOk(srv: Server) {
    forall id :: id in srv.sessions ==> SessionOk(srv.sessions[id])
  }

  /** One request to the backend, with the fields the routes read. */
  datatype Request =
    | Init(id: string)
    | LoadSheet(id: string, sheet: Mode)
    | CheckAnswer(id: string, rawInput: string, wordData: Option<Word>, mode: Mode)
    | NextWordReq(id: string, currentIndex: int)
    | NextNineWords(id: string, modeField: Option<Mode>)
    | RepeatNineWords(id: string)
    | StartReview(id: string, modeField: Option<Mode>)
    | SkipReview(id: string, modeField: Option<Mode>)

  predicate Admissible(req: Request) {
    req.LoadSheet? ==> req.sheet == Words || req.sheet == Ed || req.sheet == Yb || req.sheet == Numbers
  }

  /** The state after the backend serves `req`; `shuffle` is the unseeded shuffle of the
      review routes. */
  function Serve(srv: Server, req: Request, lib: Library, shuffle: seq<Word> -> seq<Word>): Server
    requires Admissible(req)
  {
    match req
    case Init(id) => ApiInit(srv, id, lib).server
    case LoadSheet(id, sheet) => ApiLoadSheet(srv, id, sheet, lib).server
    case CheckAnswer(id, raw, w, mode) => ApiCheckAnswer(srv, id, raw, w, mode).server
    case NextWordReq(id, i) => ApiNextWord(srv, id, i, lib).server
    case NextNineWords(id, m) => ApiNextNineWords(srv, id, m, lib).server
    case RepeatNineWords(id) => ApiRepeatNineWords(srv, id).server
    case StartReview(id, m) => ApiStartReview(srv, id, m, lib, shuffle).server
    case SkipReview(id, m) => ApiSkipReview(srv, id, m, lib, shuffle).server
  }

  /** Every route keeps every session's missed list free of duplicates and its correct
      count within its attempt count. */
  lemma ServeKeepsSessionsOk(srv: Server, req: Request, lib: Library, shuffle: seq<Word> -> seq<Word>)
    requires Admissible(req) && ServerOk(srv)
    ensures ServerOk(Serve(srv, req, lib, shuffle))
  {
    match req
    case Init(id) => SetSessionKeepsOk(srv, id, ApiInit(srv, id, lib).server);
    case LoadSheet(id, sheet) => LoadSheetKeepsOk(srv, id, sheet, lib);
    case CheckAnswer(id, raw, w, mode) => CheckAnswerKeepsOk(srv, id, raw, w, mode);
    case NextWordReq(id, i) => NextWordKeepsOk(srv, id, i, lib);
    case NextNineWords(id, m) => NextNineKeepsOk(srv, id, m, lib);
    case RepeatNineWords(id) =>
      if id in srv.sessions {
        SetSessionKeepsOk(srv, id, ApiRepeatNineWords(srv, id).server);
      }
    case StartReview(id, m) =>
      if id in srv.sessions {
        SetSessionKeepsOk(srv, id, ApiStartReview(srv, id, m, lib, shuffle).server);
      }
    case SkipReview(id, m) => SkipReviewKeepsOk(srv, id, m, lib, shuffle);
  }

  /** Replacing one session by a sound one keeps the store sound. */
  lemma SetSessionKeepsOk(srv: Server, id: string, srv': Server)
    requires ServerOk(srv)
    requires id in srv'.sessions && SessionOk(srv'.sessions[id])
    requires srv'.sessions - {id} == srv.sessions - {id}
    ensures ServerOk(srv')
  {
    forall other | other in srv'.sessions && other != id
      ensures SessionOk(srv'.sessions[other])
    {
      assert other in srv'.sessions - {id};
    }
  }

  lemma LoadSheetKeepsOk(srv: Server, id: string, sheet: Mode, lib: Library)
    requires sheet == Words || sheet == Ed || sheet == Yb || sheet == Numbers
    requires ServerOk(srv)
    ensures ServerOk(ApiLoadSheet(srv, id, sheet, lib).server)
  {
    var srv' := ApiLoadSheet(srv, id, sheet, lib).server;
    forall other | other in srv'.sessions
      ensures SessionOk(srv'.sessions[other])
    {
      if other != id {
        assert srv'.sessions[other] == srv.sessions[other];
      }
    }
  }

  lemma CheckAnswerKeepsOk(srv: Server, id: string, raw: string, w: Option<Word>, mode: Mode)
    requires ServerOk(srv)
    ensures ServerOk(ApiCheckAnswer(srv, id, raw, w, mode).server)
  {
    var r := ApiCheckAnswer(srv, id, raw, w, mode);
    if r.body.Success? {
      assert SessionOk(r.server.sessions[id]);
      forall other | other in r.server.sessions
        ensures SessionOk(r.server.sessions[other])
      {
      }
    }
  }

  lemma NextWordKeepsOk(srv: Server, id: string, currentIndex: int, lib: Library)
    requires ServerOk(srv)
    ensures ServerOk(ApiNextWord(srv, id, currentIndex, lib).server)
  {
    if id in srv.sessions {
      var s := srv.sessions[id];
      var t := NextWordStep(s, currentIndex, GetProgress(srv, s.mode), lib);
      assert SessionOk(t.session);
      SetSessionKeepsOk(srv, id, ApiNextWord(srv, id, currentIndex, lib).server);
    }
  }

  lemma NextNineKeepsOk(srv: Server, id: string, modeField: Option<Mode>, lib: Library)
    requires ServerOk(srv)
    ensures ServerOk(ApiNextNineWords(srv, id, modeField, lib).server)
  {
    if id in srv.sessions {
      SetSessionKeepsOk(srv, id, ApiNextNineWords(srv, id, modeField, lib).server);
    }
  }

  lemma SkipReviewKeepsOk(srv: Server, id: string, modeField: Option<Mode>, lib: Library,
                          shuffle: seq<Word> -> seq<Word>)
    requires ServerOk(srv)
    ensures ServerOk(ApiSkipReview(srv, id, modeField, lib, shuffle).server)
  {
    var srv' := ApiSkipReview(srv, id, modeField, lib, shuffle).server;
    if id in srv.sessions && srv'.sessions != srv.sessions {
      SetSessionKeepsOk(srv, id, srv');
    }
  }

  /** A run of requests. */
  function ServeAll(srv: Server, reqs: seq<Request>, lib: Library, shuffle: seq<Word> -> seq<Word>): Server
    requires forall k :: 0 <= k < |reqs| ==> Admissible(reqs[k])
    decreases |reqs|
  {
    if |reqs| == 0 then srv else ServeAll(Serve(srv, reqs[0], lib, shuffle), reqs[1..], lib, shuffle)
  }

  lemma {:induction false} ServeAllKeepsSessionsOk(srv: Server, reqs: seq<Request>, lib: Library,
                                                   shuffle: seq<Word> -> seq<Word>)
    requires forall k :: 0 <= k < |reqs| ==> Admissible(reqs[k])
    requires ServerOk(srv)
    ensures ServerOk(ServeAll(srv, reqs, lib, shuffle))
    decreases |reqs|
  {
    if |reqs| > 0 {
      ServeKeepsSessionsOk(srv, reqs[0], lib, shuffle);
      ServeAllKeepsSessionsOk(Serve(srv, reqs[0], lib, shuffle), reqs[1..], lib, shuffle);
    }
  }
}

=== FILE: client.dfy ===
/**
  The browser client's cursor state machine: the index of the word on screen, the
  working set it indexes and the active mode, and how each server reply and user
  choice moves them. Confirm dialogs are boolean inputs; a follow-up request the
  client sends is returned as an `Effect` for the caller to carry out.
 */
module Client {
  import opened Results
  import opened Text
  import opened Vocabulary

  /** `currentIndex`, `currentSet` and `currentMode`. */
  datatype ClientState = ClientState(index: int, words: seq<Word>, mode: Mode)

  /** The state before the init reply arrives. */
  const Initial := ClientState(0, [], Words)

  /** The three tabs the page offers; it has no tab for the numbers list. */
  datatype Tab = WordsTab | EdTab | YbTab

  function TabMode(t: Tab): (m: Mode)
    ensures m == Words || m == Ed || m == Yb
  {
    match t
    case WordsTab => Words
    case EdTab => Ed
    case YbTab => Yb
  }

  /** The request the client sends after handling a next-word reply, if any. */
  datatype Effect = NoRequest | RequestNextNine | RequestRepeat | Reload

  datatype Step = Step(client: ClientState, effect: Effect)

  /** The init reply's `current_set` becomes the working set; the cursor stays. */
  function ApplyInit(c: ClientState, current: seq<Word>): (r: ClientState)
    ensures r.words == current && r.index == c.index && r.mode == c.mode
  {
    c.(words := current)
  }

  /** A new working set from a reply, with the cursor back on its first word. A reply
      without `current_set` (an error body) leaves no set. */
  function ShowSet(c: ClientState, current: Option<seq<Word>>): (r: ClientState)
    ensures r.index == 0 && r.mode == c.mode
    ensures current.Some? ==> r.words == current.value
    ensures current.None? ==> r.words == []
  {
    c.(words := current.GetOr([]), index := 0)
  }

  /** `loadWordsSheet`, `loadEdSheet`, `loadYbSheet`: the reply's set, the cursor at 0 and
      the tab's mode. */
  function LoadSheet(c: ClientState, tab: Tab, current: Option<seq<Word>>): (r: ClientState)
    ensures r.index == 0 && r.mode == TabMode(tab)
    ensures r.words == current.GetOr([])
  {
    ShowSet(c, current).(mode := TabMode(tab))
  }

  /** The replies of `nextNineWords` and `repeatNineWords` reset the cursor and keep the mode. */
  function ApplyNineReply(c: ClientState, current: Option<seq<Word>>): (r: ClientState)
    ensures r.index == 0 && r.mode == c.mode && r.words == current.GetOr([])
  {
    ShowSet(c, current)
  }

  /** `prevWord`: one word back, never below the first. */
  function PrevWord(c: ClientState): (r: ClientState)
    ensures c.index > 0 ==> r.index == c.index - 1
    ensures c.index <= 0 ==> r == c
    ensures r.words == c.words && r.mode == c.mode
    ensures r.index >= 0 || r.index == c.index
  {
    if c.index > 0 then c.(index := c.index - 1) else c
  }

  /** The `nextWord` reply handler as the page has it. A `repeat_incorrect` reply has no
      branch and is dropped, as is any reply whose tag is unknown or missing. Both answers
      to the review dialog ask for the next group. */
  function DispatchAsWritten(c: ClientState, action: Action, confirmed: bool): (r: Step)
    ensures action.NextWord? ==> r == Step(c.(index := action.index), NoRequest)
    ensures action.NextSet? ==> r == Step(c.(words := action.words, index := 0), NoRequest)
    ensures action.SetComplete? ==> r == Step(c, if confirmed then RequestRepeat else RequestNextNine)
    ensures action.EnterReview? ==> r == Step(c, RequestNextNine)
    ensures action.ReviewComplete? ==> r == Step(c, Reload)
    ensures action.RepeatIncorrect? || action.Failed? || action.Unrecognised? ==> r == Step(c, NoRequest)
  {
    match action
    case NextWord(i) => Step(c.(index := i), NoRequest)
    case NextSet(words, _, _) => Step(c.(words := words, index := 0), NoRequest)
    case SetComplete => Step(c, if confirmed then RequestRepeat else RequestNextNine)
    case EnterReview(_) =>
      if confirmed then Step(c, RequestNextNine) else Step(c, RequestNextNine)
    case ReviewComplete(_) => Step(c, Reload)
    case _ => Step(c, NoRequest)
  }

  /** The handler with a branch for `repeat_incorrect`: the missed words become the
      working set, from the first. Every other tag is handled as the page does. */
  function Dispatch(c: ClientState, action: Action, confirmed: bool): (r: Step)
    ensures action.RepeatIncorrect? ==> r == Step(c.(words := action.words, index := 0), NoRequest)
    ensures !action.RepeatIncorrect? ==> r == DispatchAsWritten(c, action, confirmed)
  {
    match action
    case RepeatIncorrect(words) => Step(c.(words := words, index := 0), NoRequest)
    case _ => DispatchAsWritten(c, action, confirmed)
  }

  /** Whichever way the review dialog is answered, the client does the same thing. */
  lemma EnterReviewIgnoresChoice(c: ClientState, message: string)
    ensures DispatchAsWritten(c, EnterReview(message), true) == DispatchAsWritten(c, EnterReview(message), false)
    ensures Dispatch(c, EnterReview(message), true) == Dispatch(c, EnterReview(message), false)
  {
  }

  /** Going back after a forward step returns to where the cursor was. */
  lemma PrevUndoesNextWord(c: ClientState, confirmed: bool)
    requires c.index >= 0
    ensures PrevWord(Dispatch(c, NextWord(c.index + 1), confirmed).client) == c
  {
  }

  /** Going back keeps the cursor inside a set it was inside of. */
  lemma PrevStaysInSet(c: ClientState)
    requires 0 <= c.index < |c.words|
    ensures 0 <= PrevWord(c).index < |PrevWord(c).words|
  {
  }

  // ---------------------------------------------------------------------------
  // Answer submission and feedback

  /** The body of a check-answer request. `wordData` is absent when the cursor is off the set. */
  datatype AnswerRequest = AnswerRequest(input: string, wordData: Option<Word>, mode: Mode)

  /** `checkAnswer` up to the request: the typed text is trimmed, and a blank answer sends
      nothing. */
  function CheckAnswerRequest(c: ClientState, raw: string): (r: Option<AnswerRequest>)
    ensures r.None? <==> Blank(raw)
    ensures r.Some? ==>
      && r.value.input == Strip(raw) && |r.value.input| > 0 && Trimmed(r.value.input)
      && r.value.mode == c.mode
      && (r.value.wordData.Some? <==> 0 <= c.index < |c.words|)
      && (r.value.wordData.Some? ==> r.value.wordData.value == c.words[c.index])
  {
    var input := Strip(raw);
    StripEmptyIffBlank(raw);
    if input == [] then None
    else Some(AnswerRequest(input, if 0 <= c.index < |c.words| then Some(c.words[c.index]) else None, c.mode))
  }

  const CorrectPrefix: string := "✅ 정답: "
  const WrongPrefix: string := "❌ 오답! 정답: "
  const Arrow: string := " → "

  /** A missing past tense is interpolated as the text "undefined". */
  function PastTenseText(w: Word): string {
    match w.pastTense
    case Some(p) => p
    case None => "undefined"
  }

  /** The result line after an answer: the verdict, the word and, in the past-tense mode,
      the past tense after an arrow. */
  function Feedback(mode: Mode, correct: bool, w: Word): (r: string)
    ensures var prefix := if correct then CorrectPrefix else WrongPrefix;
      && |prefix| + |w.word| <= |r|
      && r[..|prefix|] == prefix
      && r[|prefix|..|prefix| + |w.word|] == w.word
      && (mode == Ed ==> r[|prefix| + |w.word|..] == Arrow + PastTenseText(w))
      && (mode != Ed ==> |r| == |prefix| + |w.word|)
  {
    var prefix := if correct then CorrectPrefix else WrongPrefix;
    var tail := if mode == Ed then Arrow + PastTenseText(w) else "";
    var r := prefix + w.word + tail;
    assert r[..|prefix|] == prefix;
    assert r[|prefix|..|prefix| + |w.word|] == w.word;
    assert r[|prefix| + |w.word|..] == tail;
    r
  }

  /** The verdict can be read off the first character of the feedback. */
  lemma FeedbackShowsVerdict(m1: Mode, w1: Word, m2: Mode, w2: Word)
    ensures Feedback(m1, true, w1)[0] != Feedback(m2, false, w2)[0]
  {
    var r1, r2 := Feedback(m1, true, w1), Feedback(m2, false, w2);
    assert r1[0] == r1[..|CorrectPrefix|][0];
    assert r2[0] == r2[..|WrongPrefix|][0];
  }

  /** Outside the past-tense mode the feedback determines the verdict and the word. */
  lemma FeedbackDeterminesAnswer(m1: Mode, ok1: bool, w1: Word, m2: Mode, ok2: bool, w2: Word)
    requires m1 != Ed && m2 != Ed
    requires Feedback(m1, ok1, w1) == Feedback(m2, ok2, w2)
    ensures ok1 == ok2 && w1.word == w2.word
  {
    var r := Feedback(m1, ok1, w1);
    if ok1 != ok2 {
      if ok1 {
        FeedbackShowsVerdict(m1, w1, m2, w2);
      } else {
        FeedbackShowsVerdict(m2, w2, m1, w1);
      }
    }
    var prefix := if ok1 then CorrectPrefix else WrongPrefix;
    assert w1.word == r[|prefix|..];
    assert w2.word == r[|prefix|..];
  }

  // ---------------------------------------------------------------------------
  // Meaning display

  /** Longest meaning shown whole in the dictionary mode. */
  const MeaningLimit: nat := 40
  /** Characters kept before the ellipsis when a meaning is cut. */
  const MeaningKeep: nat := 37
  const Ellipsis: string := "..."

  /** `displayWord`: in the dictionary mode a meaning over 40 characters is cut to its
      first 37 and an ellipsis; everything else is shown unchanged. */
  function DisplayMeaning(mode: Mode, meaning: string): (r: string)
    ensures mode == Yb ==> |r| <= MeaningLimit
    ensures mode != Yb || |meaning| <= MeaningLimit ==> r == meaning
    ensures mode == Yb && |meaning| > MeaningLimit ==>
      |r| == MeaningLimit && r[..MeaningKeep] == meaning[..MeaningKeep] && r[MeaningKeep..] == Ellipsis
  {
    if mode == Yb && |meaning| > MeaningLimit then
      var r := meaning[..MeaningKeep] + Ellipsis;
      assert r[..MeaningKeep] == meaning[..MeaningKeep];
      r
    else meaning
  }

  /** A shown meaning is shown as it is. */
  lemma DisplayMeaningIdempotent(mode: Mode, meaning: string)
    ensures DisplayMeaning(mode, DisplayMeaning(mode, meaning)) == DisplayMeaning(mode, meaning)
  {
  }

  /** The meaning on screen, if any: nothing for an empty set; a cursor off a non-empty
      set makes the page fail before it shows anything. */
  function Shown(c: ClientState): (r: Option<string>)
    ensures r.Some? <==> 0 <= c.index < |c.words|
    ensures r.Some? ==> r.value == DisplayMeaning(c.mode, c.words[c.index].meaning)
  {
    if |c.words| == 0 then None
    else if 0 <= c.index < |c.words| then Some(DisplayMeaning(c.mode, c.words[c.index].meaning))
    else None
  }

  // ---------------------------------------------------------------------------
  // Progress labels

  /** The two labels under the word: word `word` of `wordOf`, set `set` of `setOf`. */
  datatype Labels = Labels(word: int, wordOf: int, part: int, partOf: int)

  /** Words per label set, a remnant of the three-by-three layout. */
  const LabelSetSize: nat := 3

  /** `updateStats` as the page has it: both denominators are a fixed 3. `Math.floor` of a
      quotient by 3 is Dafny's `/` on `int`. */
  function StatsAsWritten(index: int): (r: Labels)
    ensures r.wordOf == 3 && r.partOf == 3
    ensures r.word == index + 1
    ensures LabelSetSize * (r.part - 1) <= index < LabelSetSize * r.part
  {
    Labels(index + 1, 3, index / 3 + 1, 3)
  }

  /** The labels counted against the set actually shown. */
  function StatsFor(index: int, setSize: nat): (r: Labels)
    ensures r.wordOf == setSize && r.partOf == CeilDiv(setSize, LabelSetSize)
    ensures 0 <= index < setSize ==> 1 <= r.word <= r.wordOf && 1 <= r.part <= r.partOf
    ensures r.word == index + 1
    ensures LabelSetSize * (r.part - 1) <= index < LabelSetSize * r.part
  {
    Labels(index + 1, setSize, index / 3 + 1, CeilDiv(setSize, LabelSetSize))
  }
}

=== FILE: grading.dfy ===
/**
  The backend's answer matching (the verdict half of the check-answer route):
  the typed answer is lower-cased and stripped, then compared with the word's
  key by the rule of the active mode.
 */
module Grading {
  import opened Results
  import opened Text
  import opened Vocabulary

  /** `word_data.get('past_tense', '')`: a word without a past tense answers "". */
  function PastTenseKey(w: Word): string {
    w.pastTense.GetOr([])
  }

  /** The single-field modes compare the whole answer with the word. */
  predicate SingleField(mode: Mode) {
    mode == Words || mode == Yb || mode == Numbers
  }

  /** `user_input.lower().strip()` */
  function Normalize(rawInput: string): string {
    Strip(Lower(rawInput))
  }

  /** The past-tense rule: the normalized answer splits on '/' into exactly two parts,
      and the stripped parts are the lower-cased word and past tense. */
  predicate EdMatch(input: string, w: Word) {
    var parts := Split(input, '/');
    |parts| == 2 && Strip(parts[0]) == Lower(w.word) && Strip(parts[1]) == Lower(PastTenseKey(w))
  }

  /** The verdict of the check-answer route for `rawInput` against `w` in `mode`. */
  function IsCorrect(mode: Mode, rawInput: string, w: Word): (ok: bool)
    ensures ok ==> mode == Words || mode == Ed || mode == Yb || mode == Numbers
  {
    match mode
    case Words => Normalize(rawInput) == Lower(w.word)
    case Ed => EdMatch(Normalize(rawInput), w)
    case Yb => Normalize(rawInput) == Lower(w.word)
    case Numbers => Normalize(rawInput) == Lower(w.word)
    case Unknown(_) => false
  }

  /** In the single-field modes an answer is correct exactly when its stripped text
      equals the word, ignoring case. */
  lemma SingleFieldIff(mode: Mode, rawInput: string, w: Word)
    requires SingleField(mode)
    ensures IsCorrect(mode, rawInput, w) <==> Lower(Strip(rawInput)) == Lower(w.word)
  {
    StripLowerCommute(rawInput);
  }

  /** A past-tense answer without exactly one slash is never correct. */
  lemma EdNeedsOneSlash(rawInput: string, w: Word)
    requires Count(rawInput, '/') != 1
    ensures !IsCorrect(Ed, rawInput, w)
  {
    CountStrip(Lower(rawInput), '/');
    CountLower(rawInput, '/');
  }

  /** In the past-tense mode an answer is correct exactly when, after lower-casing and
      stripping, it is `base/past` with one slash, and the stripped sides are the word
      and its past tense. */
  lemma EdCorrectIff(rawInput: string, w: Word)
    ensures IsCorrect(Ed, rawInput, w) <==>
      exists k :: 0 <= k < |Normalize(rawInput)| && EdSplitAt(Normalize(rawInput), k, w)
  {
    var t := Normalize(rawInput);
    if EdMatch(t, w) {
      EdMatchSplits(t, w);
    }
    if k :| 0 <= k < |t| && EdSplitAt(t, k, w) {
      SplitsEdMatch(t, k, w);
    }
  }

  lemma EdMatchSplits(t: string, w: Word)
    requires EdMatch(t, w)
    ensures exists k :: 0 <= k < |t| && EdSplitAt(t, k, w)
  {
    var parts := Split(t, '/');
    JoinTwo(parts, '/');
    AroundSeparator(parts[0], '/', parts[1]);
    assert EdSplitAt(t, |parts[0]|, w);
  }

  lemma SplitsEdMatch(t: string, k: nat, w: Word)
    requires k < |t| && EdSplitAt(t, k, w)
    ensures EdMatch(t, w)
  {
    var parts := [t[..k], t[k + 1..]];
    assert Split(t, '/') == parts by {
      JoinTwo(parts, '/');
      SplitAround(t, k);
      SplitJoin(parts, '/');
    }
  }

  /** `t` has its only slash at `k`, with the word before it and the past tense after it. */
  predicate EdSplitAt(t: string, k: nat, w: Word)
    requires k < |t|
  {
    && t[k] == '/'
    && '/' !in t[..k] && '/' !in t[k + 1..]
    && Strip(t[..k]) == Lower(w.word)
    && Strip(t[k + 1..]) == Lower(PastTenseKey(w))
  }

  /** Case does not matter: an answer and its upper-cased form get the same verdict. */
  lemma VerdictIgnoresCase(mode: Mode, rawInput: string, w: Word)
    ensures IsCorrect(mode, Upper(rawInput), w) == IsCorrect(mode, rawInput, w)
  {
    LowerUpper(rawInput);
  }

  /** Surrounding whitespace does not matter. */
  lemma VerdictIgnoresPadding(mode: Mode, a: string, rawInput: string, b: string, w: Word)
    requires Blank(a) && Blank(b)
    ensures IsCorrect(mode, a + rawInput + b, w) == IsCorrect(mode, rawInput, w)
  {
    assert Normalize(a + rawInput + b) == Normalize(rawInput) by {
      var m := Strip(rawInput);
      var a', b' := StripDecompose(rawInput);
      Regroup(a, rawInput, b, a', m, b');
      StripPadded(a + a', m, b' + b);
      StripLowerCommute(a + rawInput + b);
      StripLowerCommute(rawInput);
    }
  }

  /** A single-field word is accepted when typed as stored. */
  lemma WordAnswersItself(mode: Mode, w: Word)
    requires SingleField(mode) && Trimmed(w.word)
    ensures IsCorrect(mode, w.word, w)
  {
    LowerKeepsSpace(w.word);
    StripTrimmed(Lower(w.word));
    assert Normalize(w.word) == Lower(w.word);
  }

  /** A past-tense word is accepted when typed as `word/past`, provided neither side
      holds a slash or surrounding whitespace. */
  lemma EdAnswerAccepted(w: Word)
    requires '/' !in w.word && '/' !in PastTenseKey(w)
    requires Trimmed(w.word) && Trimmed(PastTenseKey(w))
    ensures IsCorrect(Ed, w.word + "/" + PastTenseKey(w), w)
  {
    var a, b := w.word, PastTenseKey(w);
    NormalizeSlashPair(a, b);
    LowerKeepsSpace(a);
    LowerKeepsSpace(b);
    SlashPairMatches(Lower(a), Lower(b), w);
  }

  lemma NormalizeSlashPair(a: string, b: string)
    requires Trimmed(a) && Trimmed(b)
    ensures Normalize(a + "/" + b) == Lower(a) + "/" + Lower(b)
  {
    var la, lb := Lower(a), Lower(b);
    LowerAppend(a + "/", b);
    LowerAppend(a, "/");
    LowerKeepsSpace(a);
    LowerKeepsSpace(b);
    assert Trimmed(la + "/" + lb);
    StripTrimmed(la + "/" + lb);
  }

  lemma SlashPairMatches(la: string, lb: string, w: Word)
    requires la == Lower(w.word) && lb == Lower(PastTenseKey(w))
    requires '/' !in la && '/' !in lb && Trimmed(la) && Trimmed(lb)
    ensures EdMatch(la + "/" + lb, w)
  {
    JoinTwo([la, lb], '/');
    SplitJoin([la, lb], '/');
    StripTrimmed(la);
    StripTrimmed(lb);
  }

  /** A mode outside the four checked ones never accepts an answer. */
  lemma UnknownModeRejects(name: string, rawInput: string, w: Word)
    ensures !IsCorrect(Unknown(name), rawInput, w)
  {
  }
}

=== FILE: protocol.dfy ===
/**
  Client and server together: one request, the server's handling of it and the
  client's handling of the reply, as one round. The property of interest is that
  the page shows the server's working set in the server's mode, with the cursor
  on a word of it. The page's own reply handling and a corrected one are both
  modelled; the differences are the defects listed in the README.
 */
module Protocol {
  import opened Results
  import opened Vocabulary
  import opened Backend
  import opened Client
  import Text
  import Grading

  /** The page shows the session's working set, in the session's mode, with the cursor on
      one of its words (or at 0 on an empty set). */
  predicate InSync(c: ClientState, s: Session) {
    && c.words == s.current
    && c.mode == s.mode
    && 0 <= c.index
    && (c.index < |c.words| || c.index == 0)
  }

  predicate Joined(c: ClientState, srv: Server, id: string) {
    id in srv.sessions && InSync(c, srv.sessions[id])
  }

  datatype Both = Both(server: Server, client: ClientState)

  function SetOf(body: Result<SetReply, ApiError>): Option<seq<Word>> {
    match body
    case Success(reply) => Some(reply.current)
    case Failure(_) => None
  }

  function WordsOf(body: Result<seq<Word>, ApiError>): Option<seq<Word>> {
    match body
    case Success(words) => Some(words)
    case Failure(_) => None
  }

  // ---------------------------------------------------------------------------
  // Rounds

  /** Page load: `/api/init` and the client taking its set. */
  function StartUp(srv: Server, id: string, lib: Library): (b: Both)
    ensures Joined(b.client, b.server, id)
  {
    var r := ApiInit(srv, id, lib);
    Both(r.server, ApplyInit(Initial, r.body.value.current))
  }

  /** A tab click: the sheet loader and the client's handling of its reply. */
  function SwitchTab(srv: Server, id: string, c: ClientState, tab: Tab, lib: Library): Both {
    var r := ApiLoadSheet(srv, id, TabMode(tab), lib);
    Both(r.server, Client.LoadSheet(c, tab, SetOf(r.body)))
  }

  /** A tab click with the loaders as written. An error page is not JSON, so the page's
      error handler leaves the page as it was; a JSON error body (an empty sheet) has no
      `current_set`. */
  function SwitchTabAsWritten(srv: Server, id: string, c: ClientState, tab: Tab, lib: Library): Both {
    var r := ApiLoadSheetAsWritten(srv, id, TabMode(tab), lib);
    match r.body
    case Success(reply) => Both(r.server, Client.LoadSheet(c, tab, Some(reply.current)))
    case Failure(InternalError) => Both(r.server, c)
    case Failure(_) => Both(r.server, Client.LoadSheet(c, tab, None))
  }

  /** `repeatNineWords` and its reply. */
  function RepeatRound(srv: Server, id: string, c: ClientState): Both {
    var r := ApiRepeatNineWords(srv, id);
    Both(r.server, ApplyNineReply(c, WordsOf(r.body)))
  }

  /** `nextNineWords` as the page sends it: without a mode. */
  function NextNineRoundAsWritten(srv: Server, id: string, c: ClientState, lib: Library): Both {
    var r := ApiNextNineWords(srv, id, None, lib);
    Both(r.server, ApplyNineReply(c, SetOf(r.body)))
  }

  /** `nextNineWords` sending the page's mode, which the route reads. */
  function NextNineRound(srv: Server, id: string, c: ClientState, lib: Library): Both {
    var r := ApiNextNineWords(srv, id, Some(c.mode), lib);
    Both(r.server, ApplyNineReply(c, SetOf(r.body)))
  }

  /** The request a handled next-word reply leads to. A reload starts a new page on a
      new session `freshId`. */
  function FollowUp(srv: Server, id: string, step: Step, lib: Library, carryMode: bool, freshId: string): Both {
    match step.effect
    case NoRequest => Both(srv, step.client)
    case RequestRepeat => RepeatRound(srv, id, step.client)
    case RequestNextNine =>
      if carryMode then NextNineRound(srv, id, step.client, lib)
      else NextNineRoundAsWritten(srv, id, step.client, lib)
    case Reload => StartUp(srv, freshId, lib)
  }

  /** `nextWord` as the page has it: the reply handler without a `repeat_incorrect` branch,
      and a next-group request without the mode. */
  function AdvanceRoundAsWritten(srv: Server, id: string, c: ClientState, confirmed: bool, lib: Library,
                                 freshId: string): Both {
    var r := ApiNextWord(srv, id, c.index, lib);
    match r.body
    case Failure(_) => Both(r.server, c)
    case Success(action) => FollowUp(r.server, id, DispatchAsWritten(c, action, confirmed), lib, false, freshId)
  }

  /** `nextWord` with the corrected handler and the mode sent along. */
  function AdvanceRound(srv: Server, id: string, c: ClientState, confirmed: bool, lib: Library,
                        freshId: string): Both {
    var r := ApiNextWord(srv, id, c.index, lib);
    match r.body
    case Failure(_) => Both(r.server, c)
    case Success(action) => FollowUp(r.server, id, Dispatch(c, action, confirmed), lib, true, freshId)
  }

  /** Submitting an answer: the page's request and the verdict the server answers, if a
      request was sent and served. */
  datatype Answered = Answered(state: Both, verdict: Option<bool>)

  function AnswerRound(srv: Server, id: string, c: ClientState, raw: string): Answered {
    match CheckAnswerRequest(c, raw)
    case None => Answered(Both(srv, c), None)
    case Some(req) =>
      var r := ApiCheckAnswer(srv, id, req.input, req.wordData, req.mode);
      match r.body
      case Success(reply) => Answered(Both(r.server, c), Some(reply.isCorrect))
      case Failure(_) => Answered(Both(r.server, c), None)
  }

  // ---------------------------------------------------------------------------
  // Staying in sync

  /** A tab whose word file is not empty (or the general tab, which loads even an empty
      list) leaves page and session in step. */
  lemma SwitchTabJoins(srv: Server, id: string, c: ClientState, tab: Tab, lib: Library)
    requires id in srv.sessions
    requires tab == WordsTab || |WordList(lib, TabMode(tab))| > 0
    ensures var b := SwitchTab(srv, id, c, tab, lib); Joined(b.client, b.server, id)
  {
  }

  /** A tab whose sheet has no words: the loader answers with an error body, which the page
      still reads as a sheet, so the page moves to the empty tab while the session stays on
      the old one. */
  lemma SwitchTabEmptySheetLosesSync(srv: Server, id: string, c: ClientState, tab: Tab, lib: Library)
    requires Joined(c, srv, id)
    requires tab != WordsTab && |WordList(lib, TabMode(tab))| == 0
    requires TabMode(tab) != c.mode
    ensures var b := SwitchTab(srv, id, c, tab, lib);
      && b.server == srv
      && b.client.mode == TabMode(tab) && b.client.words == []
      && !Joined(b.client, b.server, id)
  {
  }

  /** With the loaders as written, a tab click that changes the mode moves the session to
      the new sheet while the page stays as it was, in the old mode. */
  lemma SwitchTabAsWrittenLosesSync(srv: Server, id: string, c: ClientState, tab: Tab, lib: Library)
    requires Joined(c, srv, id)
    requires TabMode(tab) != c.mode
    requires tab == WordsTab || |WordList(lib, TabMode(tab))| > 0
    ensures var b := SwitchTabAsWritten(srv, id, c, tab, lib);
      && b.client == c
      && id in b.server.sessions
      && b.server.sessions[id].mode == TabMode(tab)
      && !Joined(b.client, b.server, id)
  {
  }

  /** Repeating the group keeps page and session in step when they agree on the mode. */
  lemma RepeatRoundKeepsSync(srv: Server, id: string, c: ClientState)
    requires id in srv.sessions && c.mode == srv.sessions[id].mode
    ensures var b := RepeatRound(srv, id, c); Joined(b.client, b.server, id)
  {
  }

  /** With the mode sent along, the next-group request keeps page and session in step
      whenever the mode's words form at least one group. */
  lemma NextNineRoundKeepsSync(srv: Server, id: string, c: ClientState, lib: Library)
    requires id in srv.sessions
    requires |Groups(lib, c.mode, GroupSize)| > 0
    ensures var b := NextNineRound(srv, id, c, lib); Joined(b.client, b.server, id)
  {
  }

  /** Every next-word round of the corrected page keeps page and session in step, as long
      as the session's mode has words (without them the server has no group to move to). */
  lemma AdvanceRoundKeepsSync(srv: Server, id: string, c: ClientState, confirmed: bool, lib: Library,
                              freshId: string)
    requires Joined(c, srv, id)
    requires |Groups(lib, srv.sessions[id].mode, GroupSize)| > 0
    ensures var b := AdvanceRound(srv, id, c, confirmed, lib, freshId); Joined(b.client, b.server, id)
    ensures AdvanceRound(srv, id, c, confirmed, lib, freshId).client.mode == c.mode
  {
    var s := srv.sessions[id];
    var t := NextWordStep(s, c.index, GetProgress(srv, s.mode), lib);
    var r := ApiNextWord(srv, id, c.index, lib);
    assert r.body == Success(t.action);
    assert r.server.sessions[id] == t.session;
    var step := Dispatch(c, t.action, confirmed);
    match t.action
    case NextWord(i) =>
      assert step.client == c.(index := i);
    case NextSet(words, _, _) =>
      assert step.client == c.(words := words, index := 0);
    case RepeatIncorrect(words) =>
      assert step.client == c.(words := words, index := 0);
    case Failed =>
      assert step.client == c;
    case SetComplete =>
      assert false;
    case _ =>
      assert false;
  }

  /** The server grades what the page typed: trimming on the page does not change the
      verdict, the cursor's word is graded, and the round keeps page and session in step. */
  lemma AnswerRoundGradesCursorWord(srv: Server, id: string, c: ClientState, raw: string)
    requires Joined(c, srv, id) && 0 <= c.index < |c.words|
    requires !Text.Blank(raw)
    ensures var a := AnswerRound(srv, id, c, raw);
      && a.verdict == Some(Grading.IsCorrect(c.mode, raw, c.words[c.index]))
      && Joined(a.state.client, a.state.server, id)
  {
    var w := c.words[c.index];
    var core := Text.Strip(raw);
    var pre, post := Text.StripDecompose(raw);
    Grading.VerdictIgnoresPadding(c.mode, pre, core, post, w);
    var r := ApiCheckAnswer(srv, id, core, Some(w), c.mode);
    assert r.server.sessions[id].current == srv.sessions[id].current;
  }

  /** The corrected page stays in step through any run of next-word rounds on a mode with
      words; the rounds never change the mode. */
  function AdvanceMany(srv: Server, id: string, c: ClientState, choices: seq<bool>, lib: Library,
                       freshId: string): Both
    decreases |choices|
  {
    if |choices| == 0 then Both(srv, c)
    else
      var b := AdvanceRound(srv, id, c, choices[0], lib, freshId);
      AdvanceMany(b.server, id, b.client, choices[1..], lib, freshId)
  }

  lemma {:induction false} AdvanceManyKeepsSync(srv: Server, id: string, c: ClientState, choices: seq<bool>,
                                                lib: Library, freshId: string)
    requires Joined(c, srv, id)
    requires |Groups(lib, c.mode, GroupSize)| > 0
    ensures var b := AdvanceMany(srv, id, c, choices, lib, freshId); Joined(b.client, b.server, id)
    ensures AdvanceMany(srv, id, c, choices, lib, freshId).client.mode == c.mode
    decreases |choices|
  {
    if |choices| > 0 {
      AdvanceRoundKeepsSync(srv, id, c, choices[0], lib, freshId);
      var b := AdvanceRound(srv, id, c, choices[0], lib, freshId);
      AdvanceManyKeepsSync(b.server, id, b.client, choices[1..], lib, freshId);
    }
  }

  /** The corrected labels stay within their totals whenever page and session agree. */
  lemma StatsWithinTotals(c: ClientState, s: Session)
    requires InSync(c, s) && |c.words| > 0
    ensures var l := StatsFor(c.index, |c.words|);
      1 <= l.word <= l.wordOf && 1 <= l.part <= l.partOf
  {
  }

  // ---------------------------------------------------------------------------
  // The page as written

  const Apple := Word("apple", "사과", None, "", "기초")
  const Pear := Word("pear", "배", None, "", "기초")
  const Went := Word("go", "가다", Some("went"), "", "기초")

  function Identity(ws: seq<Word>): seq<Word> { ws }

  /** A library of one general word and one past-tense word, shuffled as given. */
  const Small := Library([Apple], [Went], [], [], Identity)

  /** The page drops a `repeat_incorrect` reply: after a two-word group with the first
      word missed, the server works on the missed word alone while the page stays on the
      second word of the old group. */
  lemma RepeatIgnoredLosesSync()
    ensures var s := Session([Apple, Pear], 0, 1, 2, Words, 0, false, [Apple]);
      var srv := Server(map["s" := s], map[]);
      var c := ClientState(1, [Apple, Pear], Words);
      var b := AdvanceRoundAsWritten(srv, "s", c, true, Small, "t");
      && Joined(c, srv, "s")
      && b.server.sessions["s"].current == [Apple]
      && b.client == c
      && !Joined(b.client, b.server, "s")
  {
  }

  /** The corrected page follows the server onto the missed word. */
  lemma RepeatFollowedKeepsSync()
    ensures var s := Session([Apple, Pear], 0, 1, 2, Words, 0, false, [Apple]);
      var srv := Server(map["s" := s], map[]);
      var c := ClientState(1, [Apple, Pear], Words);
      var b := AdvanceRound(srv, "s", c, true, Small, "t");
      && b.client == ClientState(0, [Apple], Words)
      && Joined(b.client, b.server, "s")
  {
  }

  /** Without a mode the next-group route switches the session to the general list while
      the page stays in the past-tense mode. */
  lemma NextNineWithoutModeLosesSync()
    ensures var s := Session([Went], 0, 0, 0, Ed, 0, false, []);
      var srv := Server(map["s" := s], map[]);
      var c := ClientState(0, [Went], Ed);
      var b := NextNineRoundAsWritten(srv, "s", c, Small);
      && Joined(c, srv, "s")
      && b.server.sessions["s"].mode == Words
      && b.client.mode == Ed
      && b.client.words == [Apple]
      && !Joined(b.client, b.server, "s")
  {
    var groups := Groups(Small, Words, GroupSize);
    assert Flatten(groups) == [Apple];
    assert |groups| == 1;
  }

  /** The fixed denominators of the page's labels: on the last word of a full group the
      word label reads 10 of 3 and the set label 4 of 3. */
  lemma StatsAsWrittenOverflow()
    ensures StatsAsWritten(GroupSize - 1) == Labels(10, 3, 4, 3)
    ensures StatsAsWritten(GroupSize - 1).word > StatsAsWritten(GroupSize - 1).wordOf
  {
  }
}

=== FILE: results.dfy ===
/** Failure-carrying values shared by the backend and the client model. */
module Results {

  /** An optional value: a JSON field that may be absent. */
  datatype Option<+T> = None | Some(value: T) {

    /** The carried value, or `default` when there is none (Python's `dict.get(key, default)`). */
    function GetOr(default: T): T {
      match this
      case Some(v) => v
      case None => default
    }
  }

  /** Either a value or an error, as an HTTP handler answers with a body or an error status. */
  datatype Result<+R, +E> = Success(value: R) | Failure(error: E)
}

=== FILE: text.dfy ===
/**
  The string primitives the backend (Python `str.lower`, `str.strip`, `str.split`)
  and the client (JavaScript `String.prototype.trim`) apply to answers and word keys.
  Case folding and whitespace are restricted to ASCII.
 */
module Text {

  /** ASCII whitespace: tab, line feed, vertical tab, form feed, carriage return and space. */
  predicate IsSpace(c: char) {
    c == ' ' || ('\t' <= c <= '\r')
  }

  function LowerChar(c: char): char {
    if 'A' <= c <= 'Z' then (c as int + 32) as char else c
  }

  function UpperChar(c: char): char {
    if 'a' <= c <= 'z' then (c as int - 32) as char else c
  }

  /** `s.lower()` */
  function Lower(s: string): string {
    seq(|s|, i requires 0 <= i < |s| => LowerChar(s[i]))
  }

  /** `s.upper()` */
  function Upper(s: string): string {
    seq(|s|, i requires 0 <= i < |s| => UpperChar(s[i]))
  }

  /** No whitespace at either end. */
  predicate Trimmed(s: string) {
    |s| == 0 || (!IsSpace(s[0]) && !IsSpace(s[|s| - 1]))
  }

  /** Whitespace only (or empty). */
  predicate Blank(s: string) {
    forall i :: 0 <= i < |s| ==> IsSpace(s[i])
  }

  /** Drops leading whitespace. */
  function TrimStart(s: string): string
    decreases |s|
  {
    if |s| > 0 && IsSpace(s[0]) then TrimStart(s[1..]) else s
  }

  /** Drops trailing whitespace. */
  function TrimEnd(s: string): string
    decreases |s|
  {
    if |s| > 0 && IsSpace(s[|s| - 1]) then TrimEnd(s[..|s| - 1]) else s
  }

  /** `TrimStart` keeps the suffix after the leading blank run. */
  lemma {:induction false} TrimStartFacts(s: string)
    ensures |TrimStart(s)| <= |s| && TrimStart(s) == s[|s| - |TrimStart(s)|..]
    ensures |TrimStart(s)| == 0 || !IsSpace(TrimStart(s)[0])
    ensures Blank(s[..|s| - |TrimStart(s)|])
    decreases |s|
  {
    if |s| > 0 && IsSpace(s[0]) {
      var u := s[1..];
      TrimStartFacts(u);
      var r := TrimStart(u);
      assert TrimStart(s) == r;
      assert |r| <= |u| && r == u[|u| - |r|..];
      assert u[|u| - |r|..] == s[|s| - |r|..];
      var head := s[..|s| - |r|];
      forall i | 0 <= i < |head|
        ensures IsSpace(head[i])
      {
        if i > 0 {
          assert head[i] == u[..|u| - |r|][i - 1];
        }
      }
    }
  }

  /** `TrimEnd` keeps the prefix before the trailing blank run. */
  lemma {:induction false} TrimEndFacts(s: string)
    ensures |TrimEnd(s)| <= |s| && TrimEnd(s) == s[..|TrimEnd(s)|]
    ensures |TrimEnd(s)| == 0 || !IsSpace(TrimEnd(s)[|TrimEnd(s)| - 1])
    ensures Blank(s[|TrimEnd(s)|..])
    decreases |s|
  {
    if |s| > 0 && IsSpace(s[|s| - 1]) {
      var u := s[..|s| - 1];
      TrimEndFacts(u);
      var r := TrimEnd(u);
      assert TrimEnd(s) == r;
      assert |r| <= |u| && r == u[..|r|];
      assert u[..|r|] == s[..|r|];
      var tail := s[|r|..];
      forall i | 0 <= i < |tail|
        ensures IsSpace(tail[i])
      {
        if |r| + i < |u| {
          assert tail[i] == u[|r|..][i];
        }
      }
    }
  }

  /** `s.strip()` in Python, `s.trim()` in JavaScript. */
  function Strip(s: string): (r: string)
    ensures Trimmed(r)
    ensures |r| <= |s|
  {
    TrimStartFacts(s);
    TrimEndFacts(TrimStart(s));
    TrimEnd(TrimStart(s))
  }

  /** What `Strip` removes is whitespace at the two ends and nothing else. */
  lemma StripDecompose(s: string) returns (a: string, b: string)
    ensures s == a + Strip(s) + b
    ensures Blank(a) && Blank(b)
  {
    var t := TrimStart(s);
    TrimStartFacts(s);
    a := s[..|s| - |t|];
    assert s == a + t by { SplitAt(s, |s| - |t|); }
    var r := TrimEnd(t);
    TrimEndFacts(t);
    b := t[|r|..];
    assert t == r + b by { SplitAt(t, |r|); }
    assert r == Strip(s);
    assert a + (r + b) == a + r + b;
  }

  /** Occurrences of `c` in `s`. */
  function Count(s: string, c: char): nat {
    if |s| == 0 then 0 else (if s[0] == c then 1 else 0) + Count(s[1..], c)
  }

  /** Joins pieces with a separator character (`sep.join(parts)`); the empty list joins to "". */
  function Join(parts: seq<string>, sep: char): string
    decreases |parts|
  {
    if |parts| == 0 then []
    else if |parts| == 1 then parts[0]
    else parts[0] + [sep] + Join(parts[1..], sep)
  }

  /** `s.split(sep)` for a one-character separator: always at least one piece, one more
      piece than separators, no piece holds the separator, and joining restores `s`. */
  function Split(s: string, sep: char): (parts: seq<string>)
    ensures |parts| == Count(s, sep) + 1
    ensures forall k :: 0 <= k < |parts| ==> sep !in parts[k]
    ensures Join(parts, sep) == s
    decreases |s|
  {
    if |s| == 0 then [[]]
    else
      var rest := Split(s[1..], sep);
      if s[0] == sep then
        assert ([[]] + rest)[1..] == rest;
        [[]] + rest
      else
        var parts := [[s[0]] + rest[0]] + rest[1..];
        assert parts[1..] == rest[1..];
        assert Join(parts, sep) == [s[0]] + Join(rest, sep);
        assert s == [s[0]] + s[1..];
        parts
  }

  // ---------------------------------------------------------------------------
  // Facts about stripping

  lemma {:induction false} TrimStartAfterBlank(a: string, t: string)
    requires Blank(a)
    requires |t| == 0 || !IsSpace(t[0])
    ensures TrimStart(a + t) == t
    decreases |a|
  {
    if |a| > 0 {
      assert (a + t)[1..] == a[1..] + t;
      TrimStartAfterBlank(a[1..], t);
    }
  }

  lemma {:induction false} TrimEndBeforeBlank(t: string, b: string)
    requires Blank(b)
    requires |t| == 0 || !IsSpace(t[|t| - 1])
    ensures TrimEnd(t + b) == t
    decreases |b|
  {
    if |b| > 0 {
      assert (t + b)[..|t + b| - 1] == t + b[..|b| - 1];
      TrimEndBeforeBlank(t, b[..|b| - 1]);
    }
  }

  /** Stripping recovers the trimmed core of any whitespace-padded string: the
      whitespace that `Strip` removes is exactly the padding. */
  lemma StripPadded(a: string, m: string, b: string)
    requires Blank(a) && Blank(b) && Trimmed(m)
    ensures Strip(a + m + b) == m
  {
    if |m| == 0 {
      assert a + m + b == (a + b) + [];
      TrimStartAfterBlank(a + b, []);
    } else {
      assert a + m + b == a + (m + b);
      TrimStartAfterBlank(a, m + b);
      TrimEndBeforeBlank(m, b);
    }
  }

  /** A string without surrounding whitespace is its own strip. */
  lemma StripTrimmed(m: string)
    requires Trimmed(m)
    ensures Strip(m) == m
  {
    assert [] + m + [] == m;
    StripPadded([], m, []);
  }

  /** Stripping leaves nothing exactly when the string is all whitespace (Python's
      `not s.strip()`). */
  lemma StripEmptyIffBlank(s: string)
    ensures Strip(s) == [] <==> Blank(s)
  {
    var a, b := StripDecompose(s);
    if Strip(s) == [] {
      assert s == a + b;
    }
    if Blank(s) {
      assert s + [] + [] == s;
      StripPadded(s, [], []);
    }
  }

  lemma StripIdempotent(s: string)
    ensures Strip(Strip(s)) == Strip(s)
  {
    StripTrimmed(Strip(s));
  }

  /** Lower-casing and stripping commute, so `s.lower().strip()` and `s.strip().lower()` agree. */
  lemma StripLowerCommute(s: string)
    ensures Strip(Lower(s)) == Lower(Strip(s))
  {
    var m := Strip(s);
    var a, b := StripDecompose(s);
    LowerAppend(a + m, b);
    LowerAppend(a, m);
    LowerKeepsSpace(a);
    LowerKeepsSpace(m);
    LowerKeepsSpace(b);
    StripPadded(Lower(a), Lower(m), Lower(b));
  }

  // ---------------------------------------------------------------------------
  // Facts about case folding

  lemma LowerIdempotent(s: string)
    ensures Lower(Lower(s)) == Lower(s)
  {
  }

  /** Case folding forgets the case the text was typed in. */
  lemma LowerUpper(s: string)
    ensures Lower(Upper(s)) == Lower(s)
  {
  }

  lemma LowerKeepsSpace(s: string)
    ensures Blank(s) ==> Blank(Lower(s))
    ensures Trimmed(s) ==> Trimmed(Lower(s))
  {
  }

  lemma LowerAppend(a: string, b: string)
    ensures Lower(a + b) == Lower(a) + Lower(b)
  {
  }

  // ---------------------------------------------------------------------------
  // Facts about counting

  lemma {:induction false} CountAppend(a: string, b: string, c: char)
    ensures Count(a + b, c) == Count(a, c) + Count(b, c)
    decreases |a|
  {
    if |a| > 0 {
      assert (a + b)[1..] == a[1..] + b;
      CountAppend(a[1..], b, c);
    } else {
      assert a + b == b;
    }
  }

  lemma {:induction false} CountBlank(s: string, c: char)
    requires Blank(s) && !IsSpace(c)
    ensures Count(s, c) == 0
    decreases |s|
  {
    if |s| > 0 {
      CountBlank(s[1..], c);
    }
  }

  /** Stripping never removes a non-whitespace character. */
  lemma CountStrip(s: string, c: char)
    requires !IsSpace(c)
    ensures Count(Strip(s), c) == Count(s, c)
  {
    var m := Strip(s);
    var a, b := StripDecompose(s);
    CountAppend(a + m, b, c);
    CountAppend(a, m, c);
    CountBlank(a, c);
    CountBlank(b, c);
  }

  /** Lower-casing keeps every character that is not an ASCII letter. */
  lemma {:induction false} CountLower(s: string, c: char)
    requires !('A' <= c <= 'Z') && !('a' <= c <= 'z')
    ensures Count(Lower(s), c) == Count(s, c)
    decreases |s|
  {
    if |s| > 0 {
      assert Lower(s)[1..] == Lower(s[1..]);
      CountLower(s[1..], c);
    }
  }

  // ---------------------------------------------------------------------------
  // Small sequence facts, kept apart so that proofs about strings stay cheap

  lemma SplitAt<T>(s: seq<T>, i: nat)
    requires i <= |s|
    ensures s == s[..i] + s[i..]
  {
  }

  lemma Regroup<T>(a: seq<T>, x: seq<T>, b: seq<T>, a': seq<T>, m: seq<T>, b': seq<T>)
    requires x == a' + m + b'
    ensures a + x + b == (a + a') + m + (b' + b)
  {
  }

  lemma AroundSeparator<T>(p: seq<T>, c: T, q: seq<T>)
    ensures (p + [c] + q)[..|p|] == p
    ensures (p + [c] + q)[|p|] == c
    ensures (p + [c] + q)[|p| + 1..] == q
  {
  }

  lemma SplitAround<T>(t: seq<T>, k: nat)
    requires k < |t|
    ensures t == t[..k] + [t[k]] + t[k + 1..]
  {
  }

  lemma JoinTwo(parts: seq<string>, sep: char)
    requires |parts| == 2
    ensures Join(parts, sep) == parts[0] + [sep] + parts[1]
  {
    assert Join(parts[1..], sep) == parts[1];
  }

  // ---------------------------------------------------------------------------
  // Split is the inverse of Join on separator-free pieces

  lemma {:induction false} SplitWithoutSeparator(x: string, sep: char)
    requires sep !in x
    ensures Split(x, sep) == [x]
    decreases |x|
  {
    if |x| > 0 {
      SplitWithoutSeparator(x[1..], sep);
      assert [x[0]] + x[1..] == x;
    }
  }

  lemma {:induction false} SplitAfterPiece(x: string, tail: string, sep: char)
    requires sep !in x
    ensures Split(x + [sep] + tail, sep) == [x] + Split(tail, sep)
    decreases |x|
  {
    var s := x + [sep] + tail;
    if |x| == 0 {
      assert s[1..] == tail;
    } else {
      assert s[1..] == x[1..] + [sep] + tail;
      SplitAfterPiece(x[1..], tail, sep);
      assert [x[0]] + x[1..] == x;
    }
  }

  /** Splitting a join of separator-free pieces gives the pieces back. */
  lemma {:induction false} SplitJoin(parts: seq<string>, sep: char)
    requires |parts| >= 1
    requires forall k :: 0 <= k < |parts| ==> sep !in parts[k]
    ensures Split(Join(parts, sep), sep) == parts
    decreases |parts|
  {
    if |parts| == 1 {
      SplitWithoutSeparator(parts[0], sep);
    } else {
      SplitJoin(parts[1..], sep);
      SplitAfterPiece(parts[0], Join(parts[1..], sep), sep);
      assert [parts[0]] + parts[1..] == parts;
    }
  }
}

=== FILE: vocabulary.dfy ===
/**
  The data shapes shared by the backend and the browser client: vocabulary items,
  practice modes, numbered word groups and the action tags of the next-word reply,
  together with the grouping of a word list into fixed-size groups.
 */
module Vocabulary {
  import opened Results
  import Text

  /** A practice mode, as the mode string the client sends: 'Words', 'ed' (past tense),
      'yb' (dictionary), 'numbers'; any other string is `Unknown`. */
  datatype Mode = Words | Ed | Yb | Numbers | Unknown(name: string)

  /** One vocabulary item. `pastTense` is present in the past-tense list only. */
  datatype Word = Word(word: string, meaning: string, pastTense: Option<string>, example: string, category: string)

  /** A numbered group of words; numbers start at 1. */
  datatype Group = Group(number: nat, words: seq<Word>)

  /** The `action` tag of a next-word reply and the fields that come with it.
      `Unrecognised` stands for a reply whose tag the client has no branch for,
      or that carries no tag at all (an error body). */
  datatype Action =
    | NextWord(index: int)
    | NextSet(words: seq<Word>, groupIndex: nat, totalGroups: nat)
    | RepeatIncorrect(words: seq<Word>)
    | SetComplete
    | EnterReview(message: string)
    | ReviewComplete(message: string)
    | Failed
    | Unrecognised(tag: Option<string>)

  /** The words of consecutive groups, in order. */
  function Flatten(gs: seq<Group>): seq<Word>
    decreases |gs|
  {
    if |gs| == 0 then [] else gs[0].words + Flatten(gs[1..])
  }

  lemma {:induction false} FlattenAppend(a: seq<Group>, b: seq<Group>)
    ensures Flatten(a + b) == Flatten(a) + Flatten(b)
    decreases |a|
  {
    if |a| == 0 {
      assert a + b == b;
    } else {
      assert (a + b)[1..] == a[1..] + b;
      FlattenAppend(a[1..], b);
    }
  }

  /** Flattening groups of at most `size` words gives at most `size` words per group. */
  lemma {:induction false} FlattenLength(gs: seq<Group>, size: nat)
    requires forall k :: 0 <= k < |gs| ==> |gs[k].words| <= size
    ensures |Flatten(gs)| <= |gs| * size
    decreases |gs|
  {
    if |gs| > 0 {
      FlattenLength(gs[1..], size);
    }
  }

  /** ceil(n / d) */
  function CeilDiv(n: nat, d: nat): nat
    requires d > 0
  {
    (n + d - 1) / d
  }

  lemma {:induction false} MulAtLeast(e: int, d: int)
    requires d > 0 && e >= 1
    ensures e * d >= d
    decreases e
  {
    if e > 1 {
      MulAtLeast(e - 1, d);
      assert e * d == (e - 1) * d + d;
    }
  }

  /** The quotient is the only `q` with `m == q * d + r` and `0 <= r < d`. */
  lemma DivUnique(m: int, d: int, q: int, r: int)
    requires d > 0 && 0 <= r < d && m == q * d + r
    ensures m / d == q
  {
    var e := q - m / d;
    assert m == d * (m / d) + m % d;
    assert e * d == q * d - (m / d) * d;
    assert e * d == m % d - r;
    if e >= 1 {
      MulAtLeast(e, d);
    } else if e <= -1 {
      MulAtLeast(-e, d);
    }
  }

  lemma CeilDivStep(n: nat, d: nat)
    requires 0 < d < n
    ensures CeilDiv(n, d) == CeilDiv(n - d, d) + 1
  {
    var m := n - 1;
    var q, r := m / d, m % d;
    assert m == q * d + r;
    assert m + d == (q + 1) * d + r;
    DivUnique(m + d, d, q + 1, r);
  }

  lemma CeilDivOne(n: nat, d: nat)
    requires 0 < n <= d
    ensures CeilDiv(n, d) == 1
  {
    DivUnique(n + d - 1, d, 1, n - 1);
  }

  /** Cuts `s` into consecutive groups of `size` words, the last one possibly shorter,
      numbered from `first + 1` on. What it promises is stated by `ChunksFacts`. */
  function Chunks(s: seq<Word>, size: nat, first: nat): seq<Group>
    requires size > 0
    decreases |s|
  {
    if |s| == 0 then []
    else if |s| <= size then [Group(first + 1, s)]
    else [Group(first + 1, s[..size])] + Chunks(s[size..], size, first + 1)
  }

  /** The groups concatenate back to the list; there are ceil(|s| / size) of them,
      numbered consecutively; each holds between 1 and `size` words, and all but the
      last exactly `size`. */
  lemma {:induction false} ChunksFacts(s: seq<Word>, size: nat, first: nat)
    requires size > 0
    ensures var gs := Chunks(s, size, first);
      && Flatten(gs) == s
      && |gs| == CeilDiv(|s|, size)
      && (|gs| == 0 <==> |s| == 0)
      && (forall k :: 0 <= k < |gs| ==> gs[k].number == first + k + 1)
      && (forall k :: 0 <= k < |gs| ==> 0 < |gs[k].words| <= size)
      && (forall k :: 0 <= k < |gs| - 1 ==> |gs[k].words| == size)
    decreases |s|
  {
    var gs := Chunks(s, size, first);
    if |s| == 0 {
    } else if |s| <= size {
      CeilDivOne(|s|, size);
      assert Flatten(gs) == s + [];
    } else {
      var rest := Chunks(s[size..], size, first + 1);
      ChunksFacts(s[size..], size, first + 1);
      assert gs == [Group(first + 1, s[..size])] + rest;
      assert |gs| == CeilDiv(|s|, size) by {
        CeilDivStep(|s|, size);
      }
      assert Flatten(gs) == s by {
        assert gs[1..] == rest;
        Text.SplitAt(s, size);
      }
      assert forall k :: 1 <= k < |gs| ==> gs[k] == rest[k - 1];
    }
  }

  /** `create_word_groups(words, group_size)`: shuffles the list, then cuts the shuffled
      list into groups of `size` words numbered 1, 2, ... The shuffle is a parameter. */
  function CreateWordGroups(words: seq<Word>, shuffle: seq<Word> -> seq<Word>, size: nat): (gs: seq<Group>)
    requires size > 0
    ensures Flatten(gs) == shuffle(words)
    ensures |gs| == CeilDiv(|shuffle(words)|, size)
    ensures forall k :: 0 <= k < |gs| ==> gs[k].number == k + 1
    ensures forall k :: 0 <= k < |gs| ==> 0 < |gs[k].words| <= size
    ensures forall k :: 0 <= k < |gs| - 1 ==> |gs[k].words| == size
  {
    ChunksFacts(shuffle(words), size, 0);
    Chunks(shuffle(words), size, 0)
  }

  /** A shuffle that only reorders. */
  ghost predicate Permutes(shuffle: seq<Word> -> seq<Word>) {
    forall xs :: multiset(shuffle(xs)) == multiset(xs)
  }

  /** The groups hold exactly the input words, each as often as in the input. */
  lemma GroupsPermuteInput(words: seq<Word>, shuffle: seq<Word> -> seq<Word>, size: nat)
    requires size > 0 && Permutes(shuffle)
    ensures multiset(Flatten(CreateWordGroups(words, shuffle, size))) == multiset(words)
    ensures |Flatten(CreateWordGroups(words, shuffle, size))| == |words|
  {
    var flat := Flatten(CreateWordGroups(words, shuffle, size));
    assert multiset(flat) == multiset(words);
    assert |multiset(flat)| == |flat|;
  }

  lemma MulSucc(k: int, d: int)
    ensures k * d + d == (k + 1) * d
  {
  }

  /** Two adjacent slices make up the slice that spans both. */
  lemma SliceJoin<T>(s: seq<T>, lo: nat, mid: nat, hi: nat)
    requires lo <= mid <= hi <= |s|
    ensures s[lo..mid] + s[mid..hi] == s[lo..hi]
  {
    var x := s[lo..mid] + s[mid..hi];
    forall k | 0 <= k < hi - lo
      ensures x[k] == s[lo..hi][k]
    {
      if k >= mid - lo {
        assert x[k] == s[mid..hi][k - (mid - lo)];
      }
    }
  }

  lemma SliceOfSuffix<T>(s: seq<T>, a: nat, lo: nat, hi: nat, lo': nat, hi': nat)
    requires a <= |s| && lo <= hi <= |s| - a
    requires lo' == a + lo && hi' == a + hi
    ensures s[a..][lo..hi] == s[lo'..hi']
  {
  }

  /** Group `k` is the slice `[k*size, (k+1)*size)` of the list, cut at its end:
      the `shuffled_words[i:i + group_size]` of the source with `i = k * size`. */
  lemma ChunkIsSlice(s: seq<Word>, size: nat, first: nat, k: nat)
    requires size > 0
    requires k < |Chunks(s, size, first)|
    ensures k * size < |s|
    ensures Chunks(s, size, first)[k].words == s[k * size .. Min((k + 1) * size, |s|)]
  {
    ChunkAt(s, size, first, k);
    OffsetIsProduct(k, size);
    OffsetIsProduct(k + 1, size);
  }

  /** `k * size`, counted up one group at a time. */
  function Offset(k: nat, size: nat): nat {
    if k == 0 then 0 else Offset(k - 1, size) + size
  }

  lemma {:induction false} OffsetIsProduct(k: nat, size: nat)
    ensures Offset(k, size) == k * size
  {
    if k > 0 {
      OffsetIsProduct(k - 1, size);
      MulSucc(k - 1, size);
    }
  }

  /** `ChunkIsSlice` with the start counted by `Offset`, so that each step is linear. */
  lemma {:induction false} ChunkAt(s: seq<Word>, size: nat, first: nat, k: nat)
    requires size > 0
    requires k < |Chunks(s, size, first)|
    ensures Offset(k, size) < |s|
    ensures Chunks(s, size, first)[k].words == s[Offset(k, size) .. Min(Offset(k + 1, size), |s|)]
    decreases k
  {
    ChunksUnfold(s, size, first);
    if k == 0 {
      assert Offset(1, size) == size;
    } else {
      assert |s| > size;
      var t := s[size..];
      var lo := Offset(k, size);
      var hi := Offset(k + 1, size);
      assert lo == Offset(k - 1, size) + size && hi == lo + size;
      var top := Min(lo, |t|);
      assert |t| == |s| - size && Min(hi, |s|) == top + size;
      assert k - 1 < |Chunks(t, size, first + 1)|;
      assert Chunks(s, size, first)[k] == Chunks(t, size, first + 1)[k - 1];
      ChunkAt(t, size, first + 1, k - 1);
      assert Chunks(t, size, first + 1)[k - 1].words == t[lo - size .. top];
      SliceOfSuffix(s, size, lo - size, top, lo, Min(hi, |s|));
    }
  }

  lemma {:induction false} OffsetMonotone(i: nat, j: nat, size: nat)
    requires i <= j
    ensures Offset(i, size) <= Offset(j, size)
    decreases j - i
  {
    if i < j {
      OffsetMonotone(i, j - 1, size);
    }
  }

  /** Groups `a` up to `b` hold the list from the start of group `a` to the start of
      group `b`, cut at the end of the list. */
  lemma {:induction false} FlattenChunkRange(s: seq<Word>, size: nat, first: nat, a: nat, b: nat)
    requires size > 0
    requires a <= b <= |Chunks(s, size, first)|
    ensures Min(Offset(a, size), |s|) <= Min(Offset(b, size), |s|)
    ensures Flatten(Chunks(s, size, first)[a..b]) == s[Min(Offset(a, size), |s|) .. Min(Offset(b, size), |s|)]
    decreases b - a
  {
    OffsetMonotone(a, b, size);
    var gs := Chunks(s, size, first);
    if a < b {
      ChunkAt(s, size, first, a);
      FlattenChunkRange(s, size, first, a + 1, b);
      OffsetMonotone(a + 1, b, size);
      assert gs[a..b][0] == gs[a] && gs[a..b][1..] == gs[a + 1..b];
      var lo, mid, hi := Offset(a, size), Min(Offset(a + 1, size), |s|), Min(Offset(b, size), |s|);
      assert lo <= mid <= hi <= |s|;
      assert Flatten(gs[a..b]) == gs[a].words + Flatten(gs[a + 1..b]);
      assert gs[a].words == s[lo..mid] && Flatten(gs[a + 1..b]) == s[mid..hi];
      SliceJoin(s, lo, mid, hi);
    }
  }

  /** `count` groups from group `start` on, as a Python slice of the group list, hold the
      words from `start * size` to `(start + count) * size`, cut at the end of the list. */
  lemma FlattenSliceGroups(s: seq<Word>, size: nat, first: nat, start: nat, count: nat)
    requires size > 0
    ensures Min(start * size, |s|) <= Min((start + count) * size, |s|)
    ensures Flatten(SliceGroups(Chunks(s, size, first), start, count))
      == s[Min(start * size, |s|) .. Min((start + count) * size, |s|)]
  {
    var gs := Chunks(s, size, first);
    ChunksFacts(s, size, first);
    FlattenLength(gs, size);
    OffsetIsProduct(start, size);
    OffsetIsProduct(start + count, size);
    OffsetIsProduct(|gs|, size);
    OffsetMonotone(start, start + count, size);
    if start >= |gs| {
      OffsetMonotone(|gs|, start, size);
    } else {
      FlattenChunkRange(s, size, first, start, Min(start + count, |gs|));
      if start + count > |gs| {
        OffsetMonotone(|gs|, start + count, size);
      }
    }
  }

  /** One step of `Chunks`: the first group, then the groups of the rest. */
  lemma ChunksUnfold(s: seq<Word>, size: nat, first: nat)
    requires size > 0 && |s| > 0
    ensures var gs := Chunks(s, size, first);
      && gs[0].words == s[..Min(size, |s|)]
      && (|s| <= size ==> |gs| == 1)
      && (|s| > size ==> |gs| == 1 + |Chunks(s[size..], size, first + 1)|)
      && (|s| > size ==> forall k :: 1 <= k < |gs| ==> gs[k] == Chunks(s[size..], size, first + 1)[k - 1])
  {
    if |s| <= size {
      assert s[..|s|] == s;
    }
  }

  function Min(a: int, b: int): int {
    if a <= b then a else b
  }

  /** Python's `gs[start:start + count]`: slicing past the end is clamped, never an error. */
  function SliceGroups(gs: seq<Group>, start: nat, count: nat): (r: seq<Group>)
    ensures start >= |gs| ==> r == []
    ensures start < |gs| ==> r == gs[start .. Min(start + count, |gs|)]
  {
    if start >= |gs| then [] else gs[start .. Min(start + count, |gs|)]
  }

  /** Resets a stored group index that no longer names a group to 0, as every sheet
      loader and the next-group route do before loading. */
  function ClampGroupIndex(index: nat, groupCount: nat): (r: nat)
    ensures groupCount > 0 ==> r < groupCount
    ensures r == index || r == 0
    ensures index < groupCount ==> r == index
    ensures index >= groupCount ==> r == 0
  {
    if index >= groupCount then 0 else index
  }
}

=== FILE: wordlist.dfy ===
/**
  The word-list editing routes: adding a word with its meaning and deleting every
  entry whose word matches, ignoring case. The list is the general word file; reading
  and writing it is left to the caller.
 */
module WordList {
  import opened Results
  import opened Text
  import opened Vocabulary

  /** The category a word added by hand is filed under ("other"). */
  const OtherCategory: string := "기타"

  datatype EditError = MissingField   // 400 'Word and meaning are required'

  /** `/api/add-word`: both fields are stripped; a blank one is refused, otherwise the
      word is appended with no example. */
  function AddWord(words: seq<Word>, word: string, meaning: string): (r: Result<seq<Word>, EditError>)
    ensures r.Failure? <==> Blank(word) || Blank(meaning)
    ensures r.Success? ==>
      && |r.value| == |words| + 1
      && r.value[..|words|] == words
      && var added := r.value[|words|];
         && added.word == Strip(word) && added.meaning == Strip(meaning)
         && added.word != [] && Trimmed(added.word) && Trimmed(added.meaning)
         && added.pastTense.None? && added.example == [] && added.category == OtherCategory
  {
    var w, m := Strip(word), Strip(meaning);
    StripEmptyIffBlank(word);
    StripEmptyIffBlank(meaning);
    if w == [] || m == [] then Failure(MissingField)
    else
      var r := words + [Word(w, m, None, [], OtherCategory)];
      assert r[..|words|] == words;
      Success(r)
  }

  /** Does the entry match the lower-cased key? */
  predicate Matches(w: Word, key: string) {
    Lower(w.word) == key
  }

  /** The entries that do not match `key`, in their order. */
  function Remove(words: seq<Word>, key: string): (r: seq<Word>)
    ensures |r| <= |words|
    ensures forall k :: 0 <= k < |r| ==> !Matches(r[k], key)
    ensures forall w :: w in r <==> w in words && !Matches(w, key)
    decreases |words|
  {
    if |words| == 0 then []
    else
      var rest := Remove(words[1..], key);
      assert forall w :: w in words <==> w == words[0] || w in words[1..];
      if Matches(words[0], key) then rest else [words[0]] + rest
  }

  /** `/api/delete-word`: the argument is stripped, then every entry whose word equals it
      ignoring case is dropped. Stored words are compared as they are, unstripped. */
  function DeleteWord(words: seq<Word>, word: string): (r: seq<Word>)
    ensures forall w :: w in r <==> w in words && Lower(w.word) != Lower(Strip(word))
  {
    Remove(words, Lower(Strip(word)))
  }

  /** Removal works piecewise, so it keeps the survivors in their order. */
  lemma {:induction false} RemoveAppend(a: seq<Word>, b: seq<Word>, key: string)
    ensures Remove(a + b, key) == Remove(a, key) + Remove(b, key)
    decreases |a|
  {
    if |a| == 0 {
      assert a + b == b;
    } else {
      assert (a + b)[0] == a[0];
      assert (a + b)[1..] == a[1..] + b;
      RemoveAppend(a[1..], b, key);
    }
  }

  /** Removing twice removes nothing more. */
  lemma {:induction false} RemoveIdempotent(words: seq<Word>, key: string)
    ensures Remove(Remove(words, key), key) == Remove(words, key)
    decreases |words|
  {
    if |words| > 0 {
      RemoveIdempotent(words[1..], key);
      var rest := Remove(words[1..], key);
      if !Matches(words[0], key) {
        assert ([words[0]] + rest)[1..] == rest;
      }
    }
  }

  /** A list with no matching entry is left as it is. */
  lemma {:induction false} RemoveNothing(words: seq<Word>, key: string)
    requires forall k :: 0 <= k < |words| ==> !Matches(words[k], key)
    ensures Remove(words, key) == words
    decreases |words|
  {
    if |words| > 0 {
      RemoveNothing(words[1..], key);
      assert [words[0]] + words[1..] == words;
    }
  }

  /** Deleting the same word twice changes nothing the second time. */
  lemma DeleteIdempotent(words: seq<Word>, word: string)
    ensures DeleteWord(DeleteWord(words, word), word) == DeleteWord(words, word)
  {
    RemoveIdempotent(words, Lower(Strip(word)));
  }

  /** Deleting a word just added undoes the addition, together with any older entry of
      that word. */
  lemma DeleteAfterAdd(words: seq<Word>, word: string, meaning: string)
    requires AddWord(words, word, meaning).Success?
    ensures DeleteWord(AddWord(words, word, meaning).value, word) == DeleteWord(words, word)
  {
    var added := AddWord(words, word, meaning).value;
    var key := Lower(Strip(word));
    assert added == words + [added[|words|]];
    RemoveAppend(words, [added[|words|]], key);
    assert Matches(added[|words|], key);
  }

  /** Adding a word that was not there and deleting it gives back the list. */
  lemma AddDeleteRoundTrip(words: seq<Word>, word: string, meaning: string)
    requires AddWord(words, word, meaning).Success?
    requires forall k :: 0 <= k < |words| ==> Lower(words[k].word) != Lower(Strip(word))
    ensures DeleteWord(AddWord(words, word, meaning).value, word) == words
  {
    DeleteAfterAdd(words, word, meaning);
    RemoveNothing(words, Lower(Strip(word)));
  }
}
